=== FILE: README.md ===
# File operations handler — a Dafny model

This project models the bookkeeping core of the full-trust file operations
handler of the Files app (`FileOperationsHandler.cs`). The handler runs file
operations on the Windows shell copy engine for the app. The model covers
three pieces and nothing else:

- **The progress registry** (`ProgressHandler`) is a map from operation id to
  `{progress, canceled}`, plus the "all operations completed" signal. It
  covers add, remove, progress update, cancel, the cancel check and the
  aggregate progress (the truncated mean over the operations that are not
  canceled).
- **Tag propagation** (`UpdateFileTagsDb`) updates the tag database after
  each item the engine reports for a delete, rename, move or copy. It first
  updates the item's own record. Then, when the engine handled a whole
  directory as one item (`COPYENGINE_S_DONT_PROCESS_CHILDREN`), it updates
  every record under the directory by ordinal string replacement.
- **The batch executor** runs the `TestRecycle`, `DeleteItem`,
  `RenameItem`, `MoveItem` and `CopyItem` requests:
  - it synthesizes `-1` failures for inputs that cannot be queued;
  - it gates the pre-delete checks (recycle bin present or not);
  - it stops the batch on a tick for a canceled operation;
  - it assembles the result list;
  - it registers and unregisters the batch with the progress registry.
  - The search for the first file inside a folder, which the recycle test
    queues in place of the folder, is modelled too.

The shell engine is abstract. Three things about it are inputs:
- whether each input can be queued;
- the callbacks it raises, in order;
- how `PerformOperations` ends.

A "CancelOperation" message served while a batch runs is one more callback
in that sequence. The file identity lookup (`GetFileFRN`) is an
uninterpreted function from a path to a `Lookup`. `Threw` stands for a
lookup that throws, whose update `IgnoreExceptions` then skips.
`Returned(None)` stands for a lookup that returns null: the update still
happens, and the record is written or re-keyed with no identity.

Modules, in dependency order:
- `Wrappers` holds `Option`.
- `HResult` holds the int32 view of HRESULT codes and the codes the handler
  uses.
- `Paths` holds the .NET path and string functions:
  - `Path.Combine`, `Path.GetDirectoryName`;
  - ordinal `string.Replace`;
  - prefix relocation.
- `ShellEvents` holds an item event and its destination, shared by the
  result list and the tag update.
- `ProgressHandler` is the registry.
- `Tags` is the tag database and `UpdateFileTagsDb`.
- `FirstFile` is `GetFirstFile`.
- `Batch` is the executor.

Behaviour of the code that the model follows deliberately:
- **Delete destination.** A delete's destination is the path of the item the
  engine created (`DestItem`), for example the recycle-bin item. It is never
  forced to "no destination", so a recycled item's tags follow it. When the
  engine reports no such item, the record is removed.
- **Failed identity lookup.** When the identity lookup for a destination
  throws, the item's record stays where it was. This holds for a move as well:
  the whole update is skipped. A lookup that returns null does not skip
  anything; the record simply carries no identity.
- **Copy of an untagged item.** The destination's record is removed. The
  code writes the source's tags, which are absent, at the destination.
- **Lookup order.** The records under a directory are looked up after the
  directory's own record has been moved. So a moved directory's own record
  is no longer among them.
- **Reused operation id.** `AddOperation` on an id that is already
  registered keeps the old entry (`TryAdd`). A batch that reuses the id of a
  canceled operation therefore stops at its first progress tick.
- **Move or copy with too few destinations.** A move or copy that names fewer
  destinations than sources raises an index error again while recording
  that input's failure, outside the guarded block that caught it while
  queueing. It escapes the batch's body before the batch is registered. The
  model takes this to mean that no reply is sent; that depends on how
  `StartSTATask` passes the exception on, which is not part of this model
  (see "Left out").
- **Destination that extends the source.** A collapsed rename or move onto a
  path that starts with the source (`foo` renamed to `foo2`), or a copy into
  the same folder whose new name extends the old one (`D` copied as
  `D - Copy`), moves or writes the item's own record under the source first.
  The subtree pass then finds it there and rewrites it once more:
  `C:\a\foo` renamed to `foo2` leaves its tags at `C:\a\foo22`.
- **Destination that shortens the source.** The subtree pass compares path
  strings, not directories. A rename whose new path is a string prefix of
  the old one (`C:\a\foo` to `C:\a\fo`, or `New folder (2)` to
  `New folder`) is therefore outside the clean case too, although neither
  folder contains the other.

## Model

| member | source | states |
|---|---|---|
| HResult.AsInt32 | src/Files.FullTrust/MessageHandlers/FileOperationsHandler.cs:246 | The `(int)` cast of an HRESULT: the result is a 32-bit signed value, congruent to the code modulo 2^32, and negative exactly when the severity bit is set. |
| HResult.CodesClassified | src/Files.FullTrust/MessageHandlers/FileOperationsHandler.cs:246-258 | `DONT_PROCESS_CHILDREN` counts as success. `USER_CANCELLED`, `RECYCLE_BIN_NOT_FOUND` and the synthesized `-1` count as failures, and the two recycle-test codes differ. |
| Paths.Combine | src/Files.FullTrust/MessageHandlers/FileOperationsHandler.cs:863-865 | `Path.Combine(dir, name)` ends with `name`. It starts with `dir` and is longer than `dir` when `name` is relative. It is `name` alone when `name` is rooted or `dir` is empty. |
| Paths.DirectoryName | src/Files.FullTrust/MessageHandlers/FileOperationsHandler.cs:863 | `Path.GetDirectoryName` is a prefix of the path. When the path has a separator, the prefix stops right before the last separator. Otherwise it is empty. |
| Paths.DirectoryNameOfCombine | src/Files.FullTrust/MessageHandlers/FileOperationsHandler.cs:863 | Combining a folder with a plain name and taking the directory name gives back the folder. |
| Paths.ReplaceAll | src/Files.FullTrust/MessageHandlers/FileOperationsHandler.cs:906 | Ordinal `string.Replace` fails (throws) exactly when the pattern is empty. It leaves a string without the pattern unchanged. A string that starts with the pattern comes out starting with the replacement. With no other occurrence, the replacement is a prefix swap. |
| Paths.ReplaceUnchanged | src/Files.FullTrust/MessageHandlers/FileOperationsHandler.cs:906 | The left-to-right replacement returns a string that holds no occurrence unchanged. |
| Paths.Relocate | src/Files.FullTrust/MessageHandlers/FileOperationsHandler.cs:917 | Swapping the `src` prefix for `dest` gives a path under `dest` whose length changes by the difference of the two prefixes. |
| Paths.RelocateInjective | src/Files.FullTrust/MessageHandlers/FileOperationsHandler.cs:917 | Two records under `src` never land on the same rewritten path. |
| Paths.RelocatedLeavesSource | src/Files.FullTrust/MessageHandlers/FileOperationsHandler.cs:917 | When neither path is a string prefix of the other, a rewritten path no longer starts with the source path. |
| ShellEvents.Destination | src/Files.FullTrust/MessageHandlers/FileOperationsHandler.cs:860-865 | A delete's destination is the engine's new item. A rename has a destination exactly when the new name is non-empty. A move or copy has one exactly when both the folder and the name are present. The destination ends with the name, and a move or copy destination starts with the destination folder. |
| ShellEvents.RenameStaysInFolder | src/Files.FullTrust/MessageHandlers/FileOperationsHandler.cs:410 | A renamed item stays in its source's folder. |
| ShellEvents.MoveLandsInFolder | src/Files.FullTrust/MessageHandlers/FileOperationsHandler.cs:485 | A moved or copied item lands directly in the destination folder. |
| ProgressHandler.Init | src/Files.FullTrust/MessageHandlers/FileOperationsHandler.cs:952-958 | The registry starts empty with the completed signal set. |
| ProgressHandler.AddOperation | src/Files.FullTrust/MessageHandlers/FileOperationsHandler.cs:969-974 | The id is registered, a new id as `{0, not canceled}`. An existing entry and every other entry are kept, and the completed signal is cleared. |
| ProgressHandler.RemoveOperation | src/Files.FullTrust/MessageHandlers/FileOperationsHandler.cs:976-984 | Only the id leaves the registry. The signal is set when the registry becomes empty and left as it was otherwise. |
| ProgressHandler.UpdateOperation | src/Files.FullTrust/MessageHandlers/FileOperationsHandler.cs:986-997 | Only the named existing entry's progress changes. Its canceled flag, other entries, unknown ids and the signal stay the same. |
| ProgressHandler.CheckCanceled | src/Files.FullTrust/MessageHandlers/FileOperationsHandler.cs:999-1006 | Returns the stored flag for a registered id and true for an unknown one. |
| ProgressHandler.TryCancel | src/Files.FullTrust/MessageHandlers/FileOperationsHandler.cs:1008-1015 | Only the named existing entry becomes canceled, with its progress kept. The id set and the signal do not change. |
| ProgressHandler.Drained | src/Files.FullTrust/MessageHandlers/FileOperationsHandler.cs:1033-1036 | Waiting for completion returns exactly when no operation is registered. |
| ProgressHandler.StepKeepsValid | src/Files.FullTrust/MessageHandlers/FileOperationsHandler.cs:969-1015 | Each registry operation keeps "signal set ⇔ registry empty". |
| ProgressHandler.CompletedIffEmpty | src/Files.FullTrust/MessageHandlers/FileOperationsHandler.cs:956-1015 | Every sequence of registry operations keeps that invariant. |
| ProgressHandler.FromInitCompletedIffEmpty | src/Files.FullTrust/MessageHandlers/FileOperationsHandler.cs:956 | Starting from the initial set signal, the invariant holds after any sequence of operations. |
| ProgressHandler.CancelLaws | src/Files.FullTrust/MessageHandlers/FileOperationsHandler.cs:1008-1015 | Cancelling is idempotent and never adds or removes an entry. Afterwards the id reads as canceled, and an unknown id leaves the registry unchanged. |
| ProgressHandler.UpdateKeepsCanceled | src/Files.FullTrust/MessageHandlers/FileOperationsHandler.cs:986-1006 | A progress update never changes what the cancel check answers for any id. |
| ProgressHandler.AddThenRemove | src/Files.FullTrust/MessageHandlers/FileOperationsHandler.cs:969-984 | Registering a fresh id and removing it restores a valid registry exactly. |
| ProgressHandler.RemovedReadsCanceled | src/Files.FullTrust/MessageHandlers/FileOperationsHandler.cs:976-1006 | A removed operation reads as canceled. |
| ProgressHandler.TotalSplit | src/Files.FullTrust/MessageHandlers/FileOperationsHandler.cs:964-966 | The order-free sum over the entries splits off any one entry, so it does not depend on enumeration order. |
| ProgressHandler.TruncDiv | src/Files.FullTrust/MessageHandlers/FileOperationsHandler.cs:966 | The `(int)` cast of the average rounds toward zero: the floor for non-negative sums and the ceiling for negative ones. |
| ProgressHandler.TruncDivExact | src/Files.FullTrust/MessageHandlers/FileOperationsHandler.cs:966 | An exact multiple divides back to its factor. |
| ProgressHandler.CountedNonNegative | src/Files.FullTrust/MessageHandlers/FileOperationsHandler.cs:964 | The number of operations that are not canceled lies between 0 and the number of entries. |
| ProgressHandler.Progress | src/Files.FullTrust/MessageHandlers/FileOperationsHandler.cs:960-967 | The aggregate progress equals the truncated mean over the entries that are not canceled, and 0 when there are none. |
| ProgressHandler.MeanOfActive | src/Files.FullTrust/MessageHandlers/FileOperationsHandler.cs:960-967 | The aggregate is 0 when every registered operation is canceled, as when none is registered. |
| ProgressHandler.AllCanceledNotCounted | src/Files.FullTrust/MessageHandlers/FileOperationsHandler.cs:963-966 | With every operation canceled, none counts toward the mean. |
| ProgressHandler.WeightBounded | src/Files.FullTrust/MessageHandlers/FileOperationsHandler.cs:964-966 | With percentages in 0..100, the sum of progress is at most 100 per counted entry. |
| ProgressHandler.MeanInRange | src/Files.FullTrust/MessageHandlers/FileOperationsHandler.cs:960-967 | With percentages in 0..100, the aggregate progress is in 0..100. |
| ProgressHandler.WeightUniform | src/Files.FullTrust/MessageHandlers/FileOperationsHandler.cs:964-966 | When every counted entry is at `v`, the progress sum is `v` times the count. |
| ProgressHandler.MeanOfUniform | src/Files.FullTrust/MessageHandlers/FileOperationsHandler.cs:960-967 | When every running operation is at `v`, the aggregate is `v`. |
| ProgressHandler.NoneActive | src/Files.FullTrust/MessageHandlers/FileOperationsHandler.cs:963-966 | When every operation is canceled, none is counted. |
| ProgressHandler.FortySixty | src/Files.FullTrust/MessageHandlers/FileOperationsHandler.cs:960-967 | 40 and 60 give 50. Cancelling 60 leaves 40. Cancelling both gives 0, and so does an empty registry. |
| Tags.GetTags | src/Files.FullTrust/MessageHandlers/FileOperationsHandler.cs:877 | Reading the tags of a path gives its record's tags, or nothing when no record exists. |
| Tags.SetTags | src/Files.FullTrust/MessageHandlers/FileOperationsHandler.cs:869-878 | Writing no tags removes the path's record. Writing tags stores them with the identity. No other record changes. |
| Tags.UpdateTag | src/Files.FullTrust/MessageHandlers/FileOperationsHandler.cs:887 | Re-keying moves the record's tags to the new path with the new identity and drops the old key. A missing record changes nothing, and every other record stays. |
| Tags.UpdateTagIsRemoveThenSet | src/Files.FullTrust/MessageHandlers/FileOperationsHandler.cs:869-887 | When the old path has a record, re-keying equals removing that record and then writing its tags at the new path. |
| Tags.PropagateItem | src/Files.FullTrust/MessageHandlers/FileOperationsHandler.cs:856-890 | Without a destination, only the source's record is removed. A lookup that throws changes nothing. Otherwise the identity it returns is written, even when it is null. A copy writes the source's tags at the destination and keeps the source's record. A move or rename re-keys the source's record to the destination. No other record changes. |
| Tags.UnderPath | src/Files.FullTrust/MessageHandlers/FileOperationsHandler.cs:893 | The records under a directory are exactly those whose path starts with it. |
| Tags.RemoveAll | src/Files.FullTrust/MessageHandlers/FileOperationsHandler.cs:894-897 | Removing the records under a directory leaves exactly the others, unchanged. |
| Tags.Rewrite.Target | src/Files.FullTrust/MessageHandlers/FileOperationsHandler.cs:906-907 | A record under the directory is rewritten exactly when the pattern is non-empty and the lookup at the replaced path does not throw. The new path is the ordinal replacement, so a path that starts with the source starts with the destination. The identity is what the lookup returned. |
| Tags.CopyOne | src/Files.FullTrust/MessageHandlers/FileOperationsHandler.cs:902-908 | One copy step writes the record's tags, with the looked-up identity, at its rewritten path and changes no other record. A skipped record changes nothing. |
| Tags.MoveOne | src/Files.FullTrust/MessageHandlers/FileOperationsHandler.cs:913-919 | One move step re-keys the record to its rewritten path with the looked-up identity and changes no other record. A skipped or missing record changes nothing. |
| Tags.CopySubtree | src/Files.FullTrust/MessageHandlers/FileOperationsHandler.cs:898-910 | For every enumeration order, records other than the rewritten targets are kept and nothing outside the targets is added. When no two records share a target, each record under the directory is duplicated at its rewritten path with its tags. |
| Tags.MoveSubtree | src/Files.FullTrust/MessageHandlers/FileOperationsHandler.cs:911-921 | For every enumeration order, records not rewritten and not overwritten are kept. When targets are distinct and never themselves sources, each record with a known identity is re-keyed to its rewritten path, and the others stay. |
| Tags.PropagateSubtree | src/Files.FullTrust/MessageHandlers/FileOperationsHandler.cs:891-923 | With no destination, every record under the directory is removed and the rest kept. Otherwise the records are copied or moved as above. |
| Tags.CleanRewrite | src/Files.FullTrust/MessageHandlers/FileOperationsHandler.cs:906-918 | When neither path is a string prefix of the other and no record repeats the source path, the ordinal replacement is the prefix swap. It then never merges two records and never chains one rewrite into another. |
| Tags.ItemStaysOutside | src/Files.FullTrust/MessageHandlers/FileOperationsHandler.cs:867-893 | When the destination is outside the source directory, the item's update adds no record under the source. So the later lookup sees only records that were already there. |
| Tags.ItemMovedHolds | src/Files.FullTrust/MessageHandlers/FileOperationsHandler.cs:884-888 | The item's own update for a move or rename re-keys the directory's record, or leaves it when the lookup fails, and keeps every other record. |
| Tags.ItemCopiedHolds | src/Files.FullTrust/MessageHandlers/FileOperationsHandler.cs:873-883 | The item's own update for a copy keeps every record other than the destination's. When the lookup returns, the destination gets the directory's tags with the looked-up identity if the directory has a record, and loses any record it had if not (null tags remove it). A lookup that throws changes nothing. |
| Tags.MovedStageClean | src/Files.FullTrust/MessageHandlers/FileOperationsHandler.cs:887-893 | After the directory's own record moved, the relocation is still clean. The records under the source are the old inner ones, or the directory itself when its lookup failed. |
| Tags.MoveSourceRecord | src/Files.FullTrust/MessageHandlers/FileOperationsHandler.cs:887 | After a clean collapsed move (neither path is a string prefix of the other, and no record repeats the source path), the directory's tags live at the destination and not at the source. |
| Tags.MoveInnerRecord | src/Files.FullTrust/MessageHandlers/FileOperationsHandler.cs:913-919 | After a clean collapsed move (neither path is a string prefix of the other, and no record repeats the source path), each inner record with a known new identity lives at its rewritten path and not at its old one. |
| Tags.MoveSkippedRecord | src/Files.FullTrust/MessageHandlers/FileOperationsHandler.cs:915-919 | After a clean collapsed move (neither path is a string prefix of the other, and no record repeats the source path), a record whose lookup threw stays where it was. |
| Tags.MoveOutsideRecord | src/Files.FullTrust/MessageHandlers/FileOperationsHandler.cs:911-921 | A clean collapsed move (neither path is a string prefix of the other, and no record repeats the source path) leaves records outside both directories unchanged. |
| Tags.MoveCollapsed | src/Files.FullTrust/MessageHandlers/FileOperationsHandler.cs:884-921 | For a clean collapsed move (neither path is a string prefix of the other, and no record repeats the source path), the two stages together relocate the whole tree: each record with a known new identity is at its new path and gone from the old one, a record whose lookup threw stays, records outside both trees are unchanged, and new records appear only under the destination. |
| Tags.CopyCollapsed | src/Files.FullTrust/MessageHandlers/FileOperationsHandler.cs:873-910 | For a clean collapsed copy (neither path is a string prefix of the other, and no record repeats the source path), the two stages together duplicate the whole tree: each record with a known new identity is copied to its new path, every record outside the destination is unchanged (originals included), and new records appear only under the destination. |
| Tags.RewriteStaysInside | src/Files.FullTrust/MessageHandlers/FileOperationsHandler.cs:906-917 | The subtree pass only rewrites records under the source and only writes paths under the destination. |
| Tags.SubtreeFrame | src/Files.FullTrust/MessageHandlers/FileOperationsHandler.cs:867-921 | The item update and the subtree pass together leave records outside both trees unchanged and add records only under the destination. |
| Tags.UpdateFileTagsDb | src/Files.FullTrust/MessageHandlers/FileOperationsHandler.cs:854-925 | A failed item changes nothing. A plain item gets only its own update. For every item, records outside both the source and the destination trees are unchanged, and new records appear only under the destination. For a collapsed directory with no destination, every record under it is removed. For any collapsed move or rename, the subtree pass keeps what it does not rewrite and adds only rewritten paths, and re-keys every record when the rewrites neither merge nor chain. A clean one (neither path is a string prefix of the other, and no record repeats the source path) relocates the tree: each record with a known identity sits at its new path with its tags. For a collapsed copy, the same holds with duplication, and a clean one keeps the originals. |
| Tags.RenameOntoExtendedName | src/Files.FullTrust/MessageHandlers/FileOperationsHandler.cs:884-919 | A collapsed rename of `C:\a\foo` to `foo2` leaves the tags at `C:\a\foo22` and nothing at `C:\a\foo2` or `C:\a\foo`. |
| Tags.ExtendedNameItem | src/Files.FullTrust/MessageHandlers/FileOperationsHandler.cs:862-887 | In the `foo` to `foo2` example, the item's own update re-keys the record from `C:\a\foo` to `C:\a\foo2` with the looked-up identity. |
| Tags.ExtendedNameRewrite | src/Files.FullTrust/MessageHandlers/FileOperationsHandler.cs:906-918 | In the `foo` to `foo2` example, the subtree pass then finds the record at `C:\a\foo2` under the source and rewrites it to `C:\a\foo22`. |
| FirstFile.FirstFileLike | src/Files.FullTrust/MessageHandlers/FileOperationsHandler.cs:834 | Returns the first child that is a file or a stream, with no such child before it, or nothing when there is none. |
| FirstFile.GetFirstFile | src/Files.FullTrust/MessageHandlers/FileOperationsHandler.cs:827-847 | A file or stream is returned as itself. Any hit is a file or stream. |
| FirstFile.SearchSubfolders | src/Files.FullTrust/MessageHandlers/FileOperationsHandler.cs:838-845 | Any hit of the subfolder search is a file or stream, and a folder with no subfolders yields nothing. |
| FirstFile.GetFirstFileSound | src/Files.FullTrust/MessageHandlers/FileOperationsHandler.cs:827-847 | The search returns a file or stream inside the item's tree, and returns nothing exactly when the tree has none. |
| FirstFile.SearchSubfoldersSound | src/Files.FullTrust/MessageHandlers/FileOperationsHandler.cs:838-845 | The subfolder search, in order, finds a file or stream below one of the subfolders exactly when one exists. |
| FirstFile.DirectChildFirst | src/Files.FullTrust/MessageHandlers/FileOperationsHandler.cs:834-837 | A folder with a file or stream among its direct children yields the first of them, before any subfolder is searched. |
| FirstFile.ProbeTarget | src/Files.FullTrust/MessageHandlers/FileOperationsHandler.cs:224 | The recycle test queues an item inside the given one. It is a file or stream whenever the tree holds one, and the item itself otherwise. |
| Batch.NotQueued | src/Files.FullTrust/MessageHandlers/FileOperationsHandler.cs:465-471 | A queue failure is unsuccessful, has HRESULT `-1` and names the input path. A move or copy failure also names the requested destination. |
| Batch.Unqueued | src/Files.FullTrust/MessageHandlers/FileOperationsHandler.cs:219-234 | The inputs that failed to queue are listed in strictly increasing input order, each exactly once, and no other input is listed. |
| Batch.QueueFailures | src/Files.FullTrust/MessageHandlers/FileOperationsHandler.cs:302-317 | The queueing loop records one failure per unqueued input, in input order. So the number of `-1` results equals the number of queue failures. |
| Batch.QueueFailuresExact | src/Files.FullTrust/MessageHandlers/FileOperationsHandler.cs:540-557 | Every input that fails to queue has its failure in the list, and the list is exactly as long as the number of inputs that failed. |
| Batch.UnqueuedCount | src/Files.FullTrust/MessageHandlers/FileOperationsHandler.cs:219-234 | One index is listed per input that failed to queue. |
| Batch.AllQueued | src/Files.FullTrust/MessageHandlers/FileOperationsHandler.cs:456-473 | When every input queues, no failure is recorded. |
| Batch.Probe | src/Files.FullTrust/MessageHandlers/FileOperationsHandler.cs:238-259 | The recycle probe succeeds exactly when the item can be recycled. It names the item and has no destination. Its code is `COPYENGINE_E_USER_CANCELLED` for a recyclable item and `COPYENGINE_E_RECYCLE_BIN_NOT_FOUND` otherwise, both failure codes other than `-1`. |
| Batch.Reported | src/Files.FullTrust/MessageHandlers/FileOperationsHandler.cs:330-339 | A post-item result succeeds exactly when the engine's code does and carries that code and the source. A delete's destination is the engine's new item. Another operation has one exactly when the name is set and, for a move or copy, the folder is too, and it ends with the name. |
| Batch.Stops | src/Files.FullTrust/MessageHandlers/FileOperationsHandler.cs:238-349 | Only pre-delete checks and progress ticks stop a batch, and a rename never stops. The recycle test stops exactly at its pre-delete checks. A tick stops only an operation that reads as canceled. A delete stops at a check only when it is not permanent and the item cannot be recycled. |
| Batch.Emits | src/Files.FullTrust/MessageHandlers/FileOperationsHandler.cs:238-339 | A callback records at most one result. It records one exactly at the recycle test's pre-delete checks and at a registered batch's post-item reports, and that result names the callback's item. |
| Batch.EffectFrame | src/Files.FullTrust/MessageHandlers/FileOperationsHandler.cs:342-349 | A callback never adds or removes an entry or touches the completed signal. Pre-delete checks and item reports leave the registry alone. A tick touches only the batch's entry, a cancel request only its target, and a canceled entry stays canceled. |
| Batch.EffectOnEntries | src/Files.FullTrust/MessageHandlers/FileOperationsHandler.cs:342-349 | What a callback changes in the registry: a progress tick of a delete, move or copy records its percentage in the batch's own entry and keeps its cancel flag; a cancel request sets its target's cancel flag and keeps its progress. |
| Batch.CanceledPersists | src/Files.FullTrust/MessageHandlers/FileOperationsHandler.cs:342-349 | Once an operation reads as canceled, it still does after any further callbacks of a batch. |
| Batch.CancelThenTickStops | src/Files.FullTrust/MessageHandlers/FileOperationsHandler.cs:491-498 | A cancel request for the batch's id, followed later by a progress tick, makes that tick stop the batch. |
| Batch.RecycleTestSilentWhileRunning | src/Files.FullTrust/MessageHandlers/FileOperationsHandler.cs:238-259 | While the recycle test runs, no callback records anything. It records only at the pre-delete check, which always stops it. |
| Batch.OneResultPerItem | src/Files.FullTrust/MessageHandlers/FileOperationsHandler.cs:330-339 | A registered batch records exactly one result per post-item callback, and each reported item's result is among them. |
| Batch.CallbacksKeepValid | src/Files.FullTrust/MessageHandlers/FileOperationsHandler.cs:342-349 | The callbacks keep the registry's completed signal in step with its contents. |
| Batch.TagsAt | src/Files.FullTrust/MessageHandlers/FileOperationsHandler.cs:340 | One callback's tag step: a tracked item report (delete :340, rename :414, move :489, copy :573) applies the tag update, and no other callback changes the tag database. The recycle test never changes it. |
| Batch.TagsThrough | src/Files.FullTrust/MessageHandlers/FileOperationsHandler.cs:323-358 | Applying the callbacks that ran in order yields a trace of tag databases from the start database, one tag step per callback. The recycle test leaves the database unchanged. |
| Batch.TracedExtend | src/Files.FullTrust/MessageHandlers/FileOperationsHandler.cs:323-358 | A trace of tag steps over the first n callbacks, extended by one more step, is a trace over n+1 callbacks. |
| Batch.FailedItemsKeepTags | src/Files.FullTrust/MessageHandlers/FileOperationsHandler.cs:856-859 | When no item report among the callbacks that ran succeeded, the tag database at the end of the trace is the one at its start. |
| Batch.OutsideReportsKeepTags | src/Files.FullTrust/MessageHandlers/FileOperationsHandler.cs:856-919 | A record whose path starts with neither the source nor the destination of any item reported in a tracked batch keeps its tags through the whole trace. |
| Batch.CollapsedReportInTrace | src/Files.FullTrust/MessageHandlers/FileOperationsHandler.cs:890-921 | Within a batch, the report of a collapsed directory whose relocation is clean relocates the tree (move, rename) or duplicates it (copy), measured against the database just before that report. |
| Batch.HandleCallbacks | src/Files.FullTrust/MessageHandlers/FileOperationsHandler.cs:323-358 | The callbacks run in order until a handler stops the batch. Every callback before the stop passed its gate and the one at the stop tripped it. The results are those of the callbacks up to and including the stop, and the registry is the one the callbacks before the stop left. |
| Batch.Dispatch | src/Files.FullTrust/MessageHandlers/FileOperationsHandler.cs:323-358 | Every callback before the stop passed its gate, and the one at the stop tripped it. The results are those of the callbacks up to and including the stop. The registry is what the callbacks before the stop left. The tag database goes through one step per callback that ran: a tracked item report applies the tag update to it and every other callback leaves it alone. The recycle test never touches the tag database. |
| Batch.RecycleTestOutcome | src/Files.FullTrust/MessageHandlers/FileOperationsHandler.cs:238-259 | The recycle test records nothing when it is not stopped. Otherwise it stopped at a pre-delete check and recorded exactly that item's probe. |
| Batch.StopsBy | src/Files.FullTrust/MessageHandlers/FileOperationsHandler.cs:323-349 | The batch never passes a callback whose gate would trip. |
| Batch.TickGate | src/Files.FullTrust/MessageHandlers/FileOperationsHandler.cs:575-582 | A progress tick stops the batch exactly when its entry reads as canceled. Otherwise it records the percentage and keeps the canceled flag. |
| Batch.StartOf | src/Files.FullTrust/MessageHandlers/FileOperationsHandler.cs:320 | A registered batch's id is in the registry: fresh as `{0, not canceled}`, or as it was before. Every other entry is kept. |
| Batch.RunBatch | src/Files.FullTrust/MessageHandlers/FileOperationsHandler.cs:205-602 | A move or copy with too few destinations gets no reply and changes nothing. Otherwise the results are the queue failures followed by the callback results up to and including the stop. The batch's registry entry is removed afterwards, and the registry invariant is kept. Success is the engine's own report when nothing stopped the batch. When a reply is sent, the tag database went through one step per callback that ran, each the tag update of a tracked item report or no change. The recycle test stops at its first pre-delete check, reports at most that one probe after the queue failures, and never touches the tag database. A delete stops at a pre-delete check exactly when it is not permanent and the item cannot be recycled; a permanent delete stops only at a tick. A cancel request for a running delete, move or copy stops it by the next progress tick. A rename never stops. |

## Left out

- Threading and async plumbing is not modelled. This covers `StartSTATask`, `TaskCompletionSource`, `ConcurrentDictionary` atomicity, the `async void` progress update and the blocking wait. The registry is a sequential state machine, and `Drained` stands for the wait on the completed signal.
- Concurrent batches are not modelled. A concurrent "CancelOperation" is one callback in a batch's sequence, and other batches adding or removing entries while one runs are not modelled.
- The IPC replies, progress notifications to the app, and taskbar progress (`UpdateTaskbarProgress`) are left out. They are side effects on foreign objects. The `OwnerWindow` assignment goes with them.
- The shell copy engine is abstract. This covers `ShellFileOperations`, `ShellItem` and `ShellFolder` resolution, the engine's event order and the operation flags. Which inputs queue, the callbacks in order and how `PerformOperations` ends are inputs of the model.
- Batch.RunBatch: a move or copy with too few destinations is modelled as sending no reply and leaving the registry and the tag database alone. The index error escapes the batch's body, and `StartSTATask` is not part of this model. If it turns the exception into a completed task instead of faulting the awaited one, the app would get a reply that this model does not describe.
- Batch.Stops: the post-item handlers are assumed not to throw, so an item report never stops a batch. In the source, `UpdateFileTagsDb` calls the database outside `IgnoreExceptions` (`SetTags` at FileOperationsHandler.cs:869, `GetAllUnderPath` at :893 and the removal loop at :896), and it calls `e.DestFolder.GetParsingPath()` at :859 for every operation, whether or not the engine supplied a destination folder. A throw from any of these would leave the handler and stop the batch like a pre-delete check. Here those database operations are total map operations and the destination folder is an `Option`.
- Batch.Dispatch: the engine is assumed to raise no callback after a handler stops the batch; the model stops reading callbacks there. Any callback the engine still raised would not be modelled. In the source a post-item report arriving after the stop would still add a result and update the tag database (:333-341, :480-490, :564-574).
- Batch.RunBatch: a handler that stops the batch is taken to make the batch unsuccessful. The exception leaves through `PerformOperations` and is caught there, or the engine reports failure. What the engine does in between is not visible.
- Batch.RunBatch: the new-name and overwrite options of rename, move and copy only affect the engine, so they are not modelled.
- ShellEvents.Destination: a missing destination folder or destination item is read as a null path. The code dereferences `DestFolder` and `DestItem` unconditionally. What the shell wrapper returns when the engine reports none is not visible here.
- Paths.DirectoryName: `Path.GetDirectoryName` is simplified to "everything before the last separator". Roots, UNC prefixes, trailing separators and path normalisation are not modelled.
- Paths.Combine: only the rooted-second-argument and separator-joining rules of `Path.Combine` are modelled. Invalid-character checks are not.
- ProgressHandler.Progress: the floating-point `Average` followed by an `(int)` cast is modelled as integer division rounding toward zero. For a mean that is a double this is the same value as long as the sum is exact, which holds for percentages.
- Tags.UnderPath: `GetAllUnderPath` is not visible. It is assumed to return the records whose path starts with the source path, taken after the item's own update. A sibling whose name extends the directory's name (`D` and `Dx`) would then count as being under `D`.
- Tags.MoveSubtree and Tags.CopySubtree: the database's enumeration order is unknown. Each is a method whose loop picks the next record nondeterministically, so every contract holds for every order. The exact-content guarantees are stated when no two records share a rewritten path (and, for a move, no target is itself a source). `Tags.CleanRewrite` shows that this holds whenever the relocation is clean.
- Tags.UpdateFileTagsDb: the end-to-end relocation and duplication guarantees for a collapsed directory are stated for a clean relocation. That means neither path is a string prefix of the other, and no record repeats the source path after its prefix. This leaves out a rename or move onto a name that extends the old one (`foo` to `foo2`), a rename onto a name that shortens it (`C:\a\foo` to `C:\a\fo`, `New folder (2)` to `New folder`), and a same-folder copy whose new name extends the old one (`D` to `D - Copy`). In those cases the item's own record is rewritten a second time, which `Tags.RenameOntoExtendedName` shows on one instance. For them, the model states the frame outside both trees and the staged guarantees of the subtree pass over the records it finds. The ordinal replacement itself is modelled exactly, every occurrence included.
- Writing the tag to the folder itself after a copy (`WriteFileTag`) and the folder test before it are left out. They act on the file system, not the database.
- The internals of `GetFileFRN`, `WriteFileTag` and `FileTagsDb` are foreign to this code. The identity lookup is a parameter, and the database is a map from path to record.
- The other message cases are outside this model: file handles, clipboard, drag and drop, create, file in use, links, permissions, object picker and compatibility options.
- FirstFile.GetFirstFile: the shell item tree is a finite datatype, and enumeration failures inside the search (`IgnoreExceptions` around it) are not modelled beyond falling back to the item itself.

=== FILE: batch.dfy ===
/**
  The batch executor behind the "TestRecycle", "DeleteItem", "RenameItem",
  "MoveItem" and "CopyItem" file operations. Each input is queued on the shell
  copy engine (an input that cannot be queued gets a synthesized failure),
  the batch is registered with the progress registry, and the engine's
  callbacks are handled in the order it raises them: results are collected,
  tags are propagated, progress is recorded, and a handler may stop the batch.
  The engine itself is abstract: whether each input queues, the callbacks it
  raises and how `PerformOperations` ends are inputs of the model.
 */
module Batch {
  import opened Wrappers
  import opened Paths
  import opened ShellEvents
  import opened ProgressHandler
  import Tags
  import HResult

  /** One decoded file-operation request. */
  datatype Request =
    | TestRecycle(paths: seq<Path>)
    | DeleteItem(paths: seq<Path>, permanently: bool, id: OpId)
    | RenameItem(path: Path, newName: string, id: OpId)
    | MoveItem(paths: seq<Path>, dests: seq<Path>, id: OpId)
    | CopyItem(paths: seq<Path>, dests: seq<Path>, id: OpId)

  /** A `ShellOperationItemResult`. */
  datatype ItemResult = ItemResult(succeeded: bool, source: Option<Path>, destination: Option<Path>, hresult: int)

  /**
    A callback of the engine, in the order it raises them: the check before
    deleting an item (with whether it can go to the recycle bin), the report
    after an item, and a progress tick. `CancelRequest` is a "CancelOperation"
    message for some id that the handler serves while the batch runs.
   */
  datatype EngineEvent =
    | PreDelete(source: Path, recycle: bool)
    | PostItem(item: ItemEvent)
    | Tick(percent: int)
    | CancelRequest(target: OpId)

  /** How `PerformOperations` ended: the success its finish callback reported, or an exception first. */
  datatype Finish = Finished(succeeded: bool) | Threw

  /** The response: overall success and the item results, or no response at all. */
  datatype Reply = Reply(succeeded: bool, results: seq<ItemResult>) | NoReply

  // ---------------------------------------------------------------------------
  // Queueing

  function Inputs(req: Request): seq<Path> {
    if req.RenameItem? then [req.path] else req.paths
  }

  /** A move or copy that names fewer destinations than sources: recording the missing one's failure throws. */
  predicate MissingDestination(req: Request) {
    (req.MoveItem? || req.CopyItem?) && |req.dests| < |req.paths|
  }

  /** The failure recorded for input `i` when it cannot be queued. */
  function NotQueued(req: Request, i: nat): (r: ItemResult)
    requires i < |Inputs(req)| && !MissingDestination(req)
    ensures !r.succeeded && r.hresult == HResult.NotQueued && r.source == Some(Inputs(req)[i])
    ensures r.destination == (if req.MoveItem? || req.CopyItem? then Some(req.dests[i]) else None)
  {
    var dest := if req.MoveItem? || req.CopyItem? then Some(req.dests[i]) else None;
    ItemResult(false, Some(Inputs(req)[i]), dest, HResult.NotQueued)
  }

  /** The indices of the inputs that failed to queue, in input order. */
  function Unqueued(queued: seq<bool>): (ix: seq<nat>)
    ensures forall k :: 0 <= k < |ix| ==> ix[k] < |queued| && !queued[ix[k]]
    ensures forall i :: 0 <= i < |queued| && !queued[i] ==> i in ix
    ensures forall k, l :: 0 <= k < l < |ix| ==> ix[k] < ix[l]
    ensures |ix| <= |queued|
  {
    if |queued| == 0 then []
    else
      var front := Unqueued(queued[..|queued| - 1]);
      assert forall i :: 0 <= i < |queued| - 1 ==> queued[..|queued| - 1][i] == queued[i];
      if queued[|queued| - 1] then front else front + [|queued| - 1]
  }

  /** The results synthesized while queueing: one failure per input that did not queue, in input order. */
  function QueueFailures(req: Request, queued: seq<bool>): (r: seq<ItemResult>)
    requires |queued| == |Inputs(req)| && !MissingDestination(req)
    ensures |r| == |Unqueued(queued)|
    ensures forall k :: 0 <= k < |r| ==> r[k] == NotQueued(req, Unqueued(queued)[k])
  {
    var ix := Unqueued(queued);
    seq(|ix|, k requires 0 <= k < |ix| => NotQueued(req, ix[k]))
  }

  /** The inputs that fail to queue. */
  function FailedInputs(queued: seq<bool>): set<nat> {
    set i: nat | i < |queued| && !queued[i]
  }

  /** Every input that fails to queue contributes exactly one `-1` failure naming it, and nothing else does. */
  lemma QueueFailuresExact(req: Request, queued: seq<bool>, i: nat)
    requires |queued| == |Inputs(req)| && !MissingDestination(req)
    requires i < |queued| && !queued[i]
    ensures exists k :: 0 <= k < |QueueFailures(req, queued)| && QueueFailures(req, queued)[k] == NotQueued(req, i)
    ensures |QueueFailures(req, queued)| == |FailedInputs(queued)|
  {
    var ix := Unqueued(queued);
    var k :| 0 <= k < |ix| && ix[k] == i;
    assert QueueFailures(req, queued)[k] == NotQueued(req, i);
    UnqueuedCount(queued);
  }

  lemma {:induction false} UnqueuedCount(queued: seq<bool>)
    ensures |Unqueued(queued)| == |FailedInputs(queued)|
    decreases |queued|
  {
    if |queued| > 0 {
      var n := |queued| - 1;
      var front := queued[..n];
      UnqueuedCount(front);
      var s0, s1 := FailedInputs(front), FailedInputs(queued);
      assert |Unqueued(queued)| == |Unqueued(front)| + (if queued[n] then 0 else 1);
      forall j: nat | j < n
        ensures j in s1 <==> j in s0
      {
        assert front[j] == queued[j];
      }
      if queued[n] {
        assert s1 == s0;
      } else {
        assert s1 == s0 + {n};
      }
    }
  }

  /** When every input queues, no failure is synthesized. */
  lemma {:induction false} AllQueued(queued: seq<bool>)
    requires forall i :: 0 <= i < |queued| ==> queued[i]
    ensures Unqueued(queued) == []
    decreases |queued|
  {
    if |queued| > 0 {
      AllQueued(queued[..|queued| - 1]);
    }
  }

  // ---------------------------------------------------------------------------
  // The callbacks

  /** Whether the request registers with the progress registry (all but the recycle test). */
  predicate Tracked(req: Request) {
    !req.TestRecycle?
  }

  /** Whether the request handles progress ticks (delete, move and copy). */
  predicate WatchesProgress(req: Request) {
    req.DeleteItem? || req.MoveItem? || req.CopyItem?
  }

  function OpOf(req: Request): ItemOp
    requires Tracked(req)
  {
    match req
    case DeleteItem(_, _, _) => Delete
    case RenameItem(_, _, _) => Rename
    case MoveItem(_, _, _) => Move
    case CopyItem(_, _, _) => Copy
  }

  /** The result the recycle test records for an item: success exactly when it can be recycled. */
  function Probe(source: Path, recycle: bool): (r: ItemResult)
    ensures r.succeeded <==> recycle
    ensures r.source == Some(source) && r.destination.None?
    ensures !HResult.Succeeded(r.hresult) && r.hresult != HResult.NotQueued
    ensures r.hresult == (if recycle then HResult.UserCancelled else HResult.RecycleBinNotFound)
  {
    if recycle then ItemResult(true, Some(source), None, HResult.UserCancelled)
    else ItemResult(false, Some(source), None, HResult.RecycleBinNotFound)
  }

  /** The result recorded after an item. */
  function Reported(op: ItemOp, e: ItemEvent): (r: ItemResult)
    ensures r.succeeded <==> HResult.Succeeded(e.result)
    ensures r.source == Some(e.source) && r.hresult == e.result
    ensures op == Delete ==> r.destination == e.destItem
    ensures op != Delete ==> (r.destination.Some? <==> !IsNullOrEmpty(e.name) && (op == Rename || e.destFolder.Some?))
    ensures op != Delete && r.destination.Some? ==> EndsWith(r.destination.value, e.name.value)
  {
    ItemResult(HResult.Succeeded(e.result), Some(e.source), Destination(op, e), e.result)
  }

  /** Whether a handler stops the batch at this callback, given the registry at that moment. */
  predicate Stops(req: Request, reg: Registry, ev: EngineEvent)
    ensures Stops(req, reg, ev) ==> ev.PreDelete? || ev.Tick?
    ensures req.RenameItem? ==> !Stops(req, reg, ev)
    ensures req.TestRecycle? ==> (Stops(req, reg, ev) <==> ev.PreDelete?)
    ensures Stops(req, reg, ev) && ev.Tick? ==> CheckCanceled(reg, req.id)
    ensures Stops(req, reg, ev) && req.DeleteItem? && ev.PreDelete? ==> !req.permanently && !ev.recycle
  {
    match ev
    case PreDelete(_, recycle) => req.TestRecycle? || (req.DeleteItem? && !req.permanently && !recycle)
    case Tick(_) => WatchesProgress(req) && CheckCanceled(reg, req.id)
    case _ => false
  }

  /** The results a callback appends. */
  function Emits(req: Request, ev: EngineEvent): (r: seq<ItemResult>)
    ensures |r| <= 1
    ensures |r| == 1 <==> (req.TestRecycle? && ev.PreDelete?) || (Tracked(req) && ev.PostItem?)
    ensures |r| == 1 && ev.PreDelete? ==> r[0].source == Some(ev.source)
    ensures |r| == 1 && ev.PostItem? ==> r[0].source == Some(ev.item.source)
  {
    match ev
    case PreDelete(s, recycle) => if req.TestRecycle? then [Probe(s, recycle)] else []
    case PostItem(e) => if Tracked(req) then [Reported(OpOf(req), e)] else []
    case _ => []
  }

  /** What a callback that does not stop the batch does to the registry. */
  function Effect(req: Request, reg: Registry, ev: EngineEvent): Registry
  {
    match ev
    case Tick(p) => if WatchesProgress(req) then UpdateOperation(reg, req.id, p) else reg
    case CancelRequest(t) => TryCancel(reg, t)
    case _ => reg
  }

  /**
    A callback never adds or removes an entry or touches the completed
    signal; it changes at most the batch's own entry (a tick) or the entry it
    cancels, and a canceled entry stays canceled.
   */
  lemma EffectFrame(req: Request, reg: Registry, ev: EngineEvent)
    ensures Effect(req, reg, ev).ops.Keys == reg.ops.Keys && Effect(req, reg, ev).completed == reg.completed
    ensures Valid(reg) ==> Valid(Effect(req, reg, ev))
    ensures ev.PreDelete? || ev.PostItem? ==> Effect(req, reg, ev) == reg
    ensures ev.Tick? && !WatchesProgress(req) ==> Effect(req, reg, ev) == reg
    ensures ev.Tick? && WatchesProgress(req) ==> forall k :: k in reg.ops && k != req.id ==> Effect(req, reg, ev).ops[k] == reg.ops[k]
    ensures ev.CancelRequest? ==> forall k :: k in reg.ops && k != ev.target ==> Effect(req, reg, ev).ops[k] == reg.ops[k]
    ensures forall k :: k in reg.ops && reg.ops[k].canceled ==> Effect(req, reg, ev).ops[k].canceled
  {
  }

  /**
    What a callback changes: a tick the batch watches records its percentage
    in the batch's entry and keeps the cancel flag; a cancel request sets the
    flag of its target and keeps the progress.
   */
  lemma EffectOnEntries(req: Request, reg: Registry, ev: EngineEvent)
    ensures ev.Tick? && WatchesProgress(req) && req.id in reg.ops ==>
              req.id in Effect(req, reg, ev).ops &&
              Effect(req, reg, ev).ops[req.id] == Entry(ev.percent, reg.ops[req.id].canceled)
    ensures ev.CancelRequest? && ev.target in reg.ops ==>
              ev.target in Effect(req, reg, ev).ops &&
              Effect(req, reg, ev).ops[ev.target] == Entry(reg.ops[ev.target].progress, true)
  {
  }

  /** The registry after callbacks `evs`, none of which stopped the batch. */
  function RegAfter(req: Request, reg: Registry, evs: seq<EngineEvent>): Registry
    decreases |evs|
  {
    if |evs| == 0 then reg else Effect(req, RegAfter(req, reg, evs[..|evs| - 1]), evs[|evs| - 1])
  }

  /** The results appended by callbacks `evs`. */
  function EmittedBy(req: Request, evs: seq<EngineEvent>): seq<ItemResult>
    decreases |evs|
  {
    if |evs| == 0 then [] else EmittedBy(req, evs[..|evs| - 1]) + Emits(req, evs[|evs| - 1])
  }

  /** No callback of `evs` stops the batch. */
  predicate Runs(req: Request, reg: Registry, evs: seq<EngineEvent>) {
    forall k :: 0 <= k < |evs| ==> !Stops(req, RegAfter(req, reg, evs[..k]), evs[k])
  }

  lemma RunsExtend(req: Request, reg: Registry, evs: seq<EngineEvent>, ev: EngineEvent)
    requires Runs(req, reg, evs) && !Stops(req, RegAfter(req, reg, evs), ev)
    ensures Runs(req, reg, evs + [ev])
  {
    var evs' := evs + [ev];
    forall k | 0 <= k < |evs'|
      ensures !Stops(req, RegAfter(req, reg, evs'[..k]), evs'[k])
    {
      assert evs'[..k] == evs[..k] || k == |evs|;
      if k == |evs| {
        assert evs'[..k] == evs;
      }
    }
  }

  /** One more callback: how the results, the registry and the run of the gates extend. */
  lemma HandleStep(req: Request, start: Registry, events: seq<EngineEvent>, i: nat)
    requires i < |events|
    ensures EmittedBy(req, events[..i + 1]) == EmittedBy(req, events[..i]) + Emits(req, events[i])
    ensures RegAfter(req, start, events[..i + 1]) == Effect(req, RegAfter(req, start, events[..i]), events[i])
    ensures Runs(req, start, events[..i]) && !Stops(req, RegAfter(req, start, events[..i]), events[i]) ==>
              Runs(req, start, events[..i + 1])
  {
    assert events[..i + 1][..i] == events[..i];
    if Runs(req, start, events[..i]) && !Stops(req, RegAfter(req, start, events[..i]), events[i]) {
      RunsExtend(req, start, events[..i], events[i]);
      assert events[..i] + [events[i]] == events[..i + 1];
    }
  }

  lemma RunsPrefix(req: Request, reg: Registry, evs: seq<EngineEvent>, n: nat)
    requires Runs(req, reg, evs) && n <= |evs|
    ensures Runs(req, reg, evs[..n])
  {
    forall k | 0 <= k < n
      ensures !Stops(req, RegAfter(req, reg, evs[..n][..k]), evs[..n][k])
    {
      assert evs[..n][..k] == evs[..k];
    }
  }

  // ---------------------------------------------------------------------------
  // Properties of the callbacks

  /** Once an operation reads as canceled, it does so after any further callbacks. */
  lemma {:induction false} CanceledPersists(req: Request, reg: Registry, evs: seq<EngineEvent>, id: OpId)
    requires CheckCanceled(reg, id)
    ensures CheckCanceled(RegAfter(req, reg, evs), id)
    decreases |evs|
  {
    if |evs| > 0 {
      CanceledPersists(req, reg, evs[..|evs| - 1], id);
    }
  }

  /** A cancel request for the batch followed later by a progress tick: that tick stops the batch. */
  lemma CancelThenTickStops(req: Request, reg: Registry, evs: seq<EngineEvent>, j: nat, k: nat)
    requires WatchesProgress(req) && j < k < |evs|
    requires evs[j] == CancelRequest(req.id) && evs[k].Tick?
    ensures Stops(req, RegAfter(req, reg, evs[..k]), evs[k])
  {
    var r1 := RegAfter(req, reg, evs[..j + 1]);
    assert evs[..j + 1][..j] == evs[..j];
    assert CheckCanceled(r1, req.id);
    assert evs[..k] == evs[..j + 1] + evs[j + 1..k];
    RegAfterAppend(req, reg, evs[..j + 1], evs[j + 1..k]);
    CanceledPersists(req, r1, evs[j + 1..k], req.id);
  }

  /** A callback inside a run that did not stop did not stop it. */
  lemma RanAt(req: Request, reg: Registry, evs: seq<EngineEvent>, n: nat, k: nat)
    requires k < n <= |evs| && Runs(req, reg, evs[..n])
    ensures !Stops(req, RegAfter(req, reg, evs[..k]), evs[k])
  {
    assert evs[..n][..k] == evs[..k];
  }

  lemma {:induction false} RegAfterAppend(req: Request, reg: Registry, a: seq<EngineEvent>, b: seq<EngineEvent>)
    ensures RegAfter(req, reg, a + b) == RegAfter(req, RegAfter(req, reg, a), b)
    decreases |b|
  {
    if |b| == 0 {
      assert a + b == a;
    } else {
      assert (a + b)[..|a + b| - 1] == a + b[..|b| - 1];
      RegAfterAppend(req, reg, a, b[..|b| - 1]);
    }
  }

  /** Until the recycle test stops, nothing is recorded: it records only at the pre-delete check that stops it. */
  lemma {:induction false} RecycleTestSilentWhileRunning(req: Request, reg: Registry, evs: seq<EngineEvent>)
    requires req.TestRecycle? && Runs(req, reg, evs)
    ensures EmittedBy(req, evs) == []
    decreases |evs|
  {
    if |evs| > 0 {
      var n := |evs| - 1;
      RunsPrefix(req, reg, evs, n);
      RecycleTestSilentWhileRunning(req, reg, evs[..n]);
      assert !Stops(req, RegAfter(req, reg, evs[..n]), evs[n]);
    }
  }

  function PostCount(evs: seq<EngineEvent>): nat
    decreases |evs|
  {
    if |evs| == 0 then 0 else PostCount(evs[..|evs| - 1]) + (if evs[|evs| - 1].PostItem? then 1 else 0)
  }

  /** A registered batch records exactly one result per post-item callback, in callback order. */
  lemma {:induction false} OneResultPerItem(req: Request, evs: seq<EngineEvent>)
    requires Tracked(req)
    ensures |EmittedBy(req, evs)| == PostCount(evs)
    ensures forall k :: 0 <= k < |evs| && evs[k].PostItem? ==> Reported(OpOf(req), evs[k].item) in EmittedBy(req, evs)
    decreases |evs|
  {
    if |evs| > 0 {
      var n := |evs| - 1;
      OneResultPerItem(req, evs[..n]);
      forall k | 0 <= k < |evs| && evs[k].PostItem?
        ensures Reported(OpOf(req), evs[k].item) in EmittedBy(req, evs)
      {
        if k < n {
          assert evs[..n][k] == evs[k];
        }
      }
    }
  }

  /** The callbacks keep the completed signal in step with the registry's contents. */
  lemma {:induction false} CallbacksKeepValid(req: Request, reg: Registry, evs: seq<EngineEvent>)
    requires Valid(reg)
    ensures Valid(RegAfter(req, reg, evs))
    decreases |evs|
  {
    if |evs| > 0 {
      CallbacksKeepValid(req, reg, evs[..|evs| - 1]);
    }
  }

  // ---------------------------------------------------------------------------
  // The tag database across a batch

  /** The tag database across one callback that ran: a registered batch's item report goes through the tag update; nothing else touches it. */
  ghost predicate TagStep(req: Request, db: Tags.TagDb, ev: EngineEvent, frnOf: Tags.FrnLookup, db': Tags.TagDb) {
    if Tracked(req) && ev.PostItem? then Tags.ItemTagsUpdated(db, OpOf(req), ev.item, frnOf, db') else db' == db
  }

  /** `trace` is the tag database before each of the first `ran` callbacks, followed by the one after the last of them. */
  ghost predicate TagsFollow(req: Request, events: seq<EngineEvent>, frnOf: Tags.FrnLookup, trace: seq<Tags.TagDb>, ran: nat)
    requires ran <= |events|
  {
    && |trace| == ran + 1
    && forall k :: 0 <= k < ran ==> TagStep(req, trace[k], events[k], frnOf, trace[k + 1])
  }

  /** The tag database went from `db0` to `db` through the first `n` callbacks, as `trace` records. */
  ghost predicate Traced(req: Request, events: seq<EngineEvent>, frnOf: Tags.FrnLookup, trace: seq<Tags.TagDb>,
                         n: nat, db0: Tags.TagDb, db: Tags.TagDb) {
    n <= |events| && TagsFollow(req, events, frnOf, trace, n) && trace[0] == db0 && trace[n] == db
  }

  lemma TracedExtend(req: Request, events: seq<EngineEvent>, frnOf: Tags.FrnLookup, trace: seq<Tags.TagDb>,
                     n: nat, db0: Tags.TagDb, db: Tags.TagDb, db': Tags.TagDb)
    requires Traced(req, events, frnOf, trace, n, db0, db) && n < |events|
    requires TagStep(req, db, events[n], frnOf, db')
    ensures Traced(req, events, frnOf, trace + [db'], n + 1, db0, db')
  {
    var t := trace + [db'];
    forall k | 0 <= k < n + 1
      ensures TagStep(req, t[k], events[k], frnOf, t[k + 1])
    {
      assert t[k] == trace[k];
    }
  }

  /** The first `n` callbacks report no item that succeeded. */
  predicate NoItemSucceeded(events: seq<EngineEvent>, n: nat)
    requires n <= |events|
  {
    forall k :: 0 <= k < n && events[k].PostItem? ==> !HResult.Succeeded(events[k].item.result)
  }

  /** A batch none of whose reported items succeeded leaves the tag database as it found it. */
  lemma {:induction false} FailedItemsKeepTags(req: Request, events: seq<EngineEvent>, frnOf: Tags.FrnLookup,
                                               trace: seq<Tags.TagDb>, ran: nat)
    requires ran <= |events| && TagsFollow(req, events, frnOf, trace, ran)
    requires NoItemSucceeded(events, ran)
    ensures trace[ran] == trace[0]
    decreases ran
  {
    if ran > 0 {
      FailedItemsKeepTags(req, events, frnOf, trace[..ran], ran - 1);
      assert TagStep(req, trace[ran - 1], events[ran - 1], frnOf, trace[ran]);
    }
  }

  /** The path lies outside the source and the destination tree of every item reported among the first `n` callbacks. */
  predicate OutsideReports(req: Request, events: seq<EngineEvent>, n: nat, p: Path)
    requires Tracked(req) && n <= |events|
  {
    forall k :: 0 <= k < n && events[k].PostItem? ==>
      && !StartsWith(p, events[k].item.source)
      && (Destination(OpOf(req), events[k].item).None? || !StartsWith(p, Destination(OpOf(req), events[k].item).value))
  }

  /** A record outside every reported item's trees comes through the batch unchanged. */
  lemma {:induction false} OutsideReportsKeepTags(req: Request, events: seq<EngineEvent>, frnOf: Tags.FrnLookup,
                                                  trace: seq<Tags.TagDb>, ran: nat, p: Path)
    requires Tracked(req) && ran <= |events| && TagsFollow(req, events, frnOf, trace, ran)
    requires OutsideReports(req, events, ran, p) && p in trace[0]
    ensures p in trace[ran] && trace[ran][p] == trace[0][p]
    decreases ran
  {
    if ran > 0 {
      OutsideReportsKeepTags(req, events, frnOf, trace[..ran], ran - 1, p);
      assert TagStep(req, trace[ran - 1], events[ran - 1], frnOf, trace[ran]);
    }
  }

  /**
    Within a batch, a report of a collapsed directory whose relocation is
    clean relocates (move, rename) or duplicates (copy) the tree as the
    database stood just before it.
   */
  lemma CollapsedReportInTrace(req: Request, events: seq<EngineEvent>, frnOf: Tags.FrnLookup,
                               trace: seq<Tags.TagDb>, ran: nat, k: nat)
    requires Tracked(req) && ran <= |events| && TagsFollow(req, events, frnOf, trace, ran) && k < ran
    requires events[k].PostItem? && events[k].item.result == HResult.DontProcessChildren
    requires Destination(OpOf(req), events[k].item).Some?
    requires Tags.CleanRelocation(trace[k], events[k].item.source, Destination(OpOf(req), events[k].item).value)
    ensures OpOf(req) != Copy ==>
              Tags.MovedUnder(trace[k], trace[k + 1], events[k].item.source, Destination(OpOf(req), events[k].item).value, frnOf)
    ensures OpOf(req) == Copy ==>
              Tags.CopiedUnder(trace[k], trace[k + 1], events[k].item.source, Destination(OpOf(req), events[k].item).value, frnOf)
  {
    assert TagStep(req, trace[k], events[k], frnOf, trace[k + 1]);
  }

  // ---------------------------------------------------------------------------
  // Running a batch

  /** The tag update a callback triggers: a registered batch's item reports go to `UpdateFileTagsDb`. */
  method TagsAt(req: Request, db: Tags.TagDb, ev: EngineEvent, frnOf: Tags.FrnLookup) returns (db': Tags.TagDb)
    ensures TagStep(req, db, ev, frnOf, db')
    ensures req.TestRecycle? ==> db' == db
  {
    db' := db;
    if ev.PostItem? && Tracked(req) {
      db' := Tags.UpdateFileTagsDb(db, OpOf(req), ev.item, frnOf);
    }
  }

  /**
    The tag updates of the first `n` callbacks, in callback order. They never
    feed back into a gate, a result or the registry, so they can be applied
    after the gates have decided how far the batch ran.
   */
  method TagsThrough(req: Request, events: seq<EngineEvent>, n: nat, db0: Tags.TagDb, frnOf: Tags.FrnLookup)
    returns (db: Tags.TagDb, ghost trace: seq<Tags.TagDb>)
    requires n <= |events|
    ensures Traced(req, events, frnOf, trace, n, db0, db)
    ensures req.TestRecycle? ==> db == db0
  {
    db, trace := db0, [db0];
    var i := 0;
    while i < n
      invariant i <= n && Traced(req, events, frnOf, trace, i, db0, db)
      invariant req.TestRecycle? ==> db == db0
    {
      var db' := TagsAt(req, db, events[i], frnOf);
      TracedExtend(req, events, frnOf, trace, i, db0, db, db');
      db, trace := db', trace + [db'];
      i := i + 1;
    }
  }

  /**
    The callbacks `events` handled one after the other, from the registry
    `start` and the tag database `db0`, until a handler stops the batch.
   */
  method Dispatch(req: Request, events: seq<EngineEvent>, start: Registry, db0: Tags.TagDb, frnOf: Tags.FrnLookup)
    returns (emitted: seq<ItemResult>, stop: Option<nat>, reg: Registry, db: Tags.TagDb, ghost trace: seq<Tags.TagDb>)
    ensures Handled(req, events, start, emitted, stop, reg)
    ensures req.TestRecycle? ==> db == db0
    ensures Traced(req, events, frnOf, trace, Ran(events, stop), db0, db)
  {
    emitted, stop, reg := HandleCallbacks(req, events, start);
    db, trace := TagsThrough(req, events, Ran(events, stop), db0, frnOf);
  }

  /** The gates and results of `Dispatch`, callback by callback, from the registry `start`. */
  method HandleCallbacks(req: Request, events: seq<EngineEvent>, start: Registry)
    returns (emitted: seq<ItemResult>, stop: Option<nat>, reg: Registry)
    ensures Handled(req, events, start, emitted, stop, reg)
  {
    emitted, reg := [], start;
    var i := 0;
    while i < |events| && !Stops(req, reg, events[i])
      invariant i <= |events|
      invariant Runs(req, start, events[..i]) && reg == RegAfter(req, start, events[..i])
      invariant emitted == EmittedBy(req, events[..i])
      decreases |events| - i
    {
      HandleStep(req, start, events, i);
      emitted := emitted + Emits(req, events[i]);
      reg := Effect(req, reg, events[i]);
      i := i + 1;
    }
    if i < |events| {
      HandleStep(req, start, events, i);
      emitted := emitted + Emits(req, events[i]);
      stop := Some(i);
    } else {
      assert events[..i] == events;
      stop := None;
    }
  }

  /** The callbacks that ran before the stop (all of them when none stopped). */
  function Ran(events: seq<EngineEvent>, stop: Option<nat>): nat {
    if stop.Some? then stop.value else |events|
  }

  /**
    The outcome of handling `events` from `start`: the callbacks before the
    stop all ran, the one at the stop did stop the batch, the results are those
    of every callback up to and including the stop, and the registry is the
    one the callbacks before the stop left.
   */
  ghost predicate Handled(req: Request, events: seq<EngineEvent>, start: Registry,
                          emitted: seq<ItemResult>, stop: Option<nat>, reg: Registry) {
    var ran := Ran(events, stop);
    && (stop.Some? ==> stop.value < |events|)
    && Runs(req, start, events[..ran])
    && reg == RegAfter(req, start, events[..ran])
    && (stop.Some? ==> Stops(req, reg, events[ran]))
    && emitted == EmittedBy(req, events[..if stop.Some? then ran + 1 else ran])
  }

  /** The recycle test reports at most one probe: the one for the item whose check stopped it. */
  lemma RecycleTestOutcome(req: Request, events: seq<EngineEvent>, start: Registry,
                           emitted: seq<ItemResult>, stop: Option<nat>, reg: Registry)
    requires req.TestRecycle? && Handled(req, events, start, emitted, stop, reg)
    ensures stop.None? ==> emitted == []
    ensures stop.Some? ==> (events[stop.value].PreDelete? &&
              emitted == [Probe(events[stop.value].source, events[stop.value].recycle)])
  {
    var ran := Ran(events, stop);
    RecycleTestSilentWhileRunning(req, start, events[..ran]);
    if stop.Some? {
      assert events[..ran + 1][..ran] == events[..ran];
    }
  }

  /** A callback that would stop the batch, given the registry the callbacks before it leave, is not passed. */
  lemma StopsBy(req: Request, events: seq<EngineEvent>, start: Registry,
                emitted: seq<ItemResult>, stop: Option<nat>, reg: Registry, k: nat)
    requires Handled(req, events, start, emitted, stop, reg)
    requires k < |events| && Stops(req, RegAfter(req, start, events[..k]), events[k])
    ensures stop.Some? && stop.value <= k
  {
    if Ran(events, stop) > k {
      RanAt(req, start, events, Ran(events, stop), k);
    }
  }

  /**
    A progress tick on a watched batch whose entry is registered stops the
    batch exactly when the entry reads as canceled; otherwise it records the
    tick's percentage and keeps the canceled flag.
   */
  lemma TickGate(req: Request, reg: Registry, evs: seq<EngineEvent>, p: int)
    requires WatchesProgress(req) && req.id in RegAfter(req, reg, evs).ops
    ensures Stops(req, RegAfter(req, reg, evs), Tick(p)) <==> RegAfter(req, reg, evs).ops[req.id].canceled
    ensures req.id in RegAfter(req, reg, evs + [Tick(p)]).ops
    ensures RegAfter(req, reg, evs + [Tick(p)]).ops[req.id] == Entry(p, RegAfter(req, reg, evs).ops[req.id].canceled)
  {
    assert (evs + [Tick(p)])[..|evs|] == evs;
  }

  /** The registry once the batch is registered (the recycle test does not register). */
  function StartOf(req: Request, reg0: Registry): (r: Registry)
    ensures Tracked(req) ==> req.id in r.ops
    ensures Tracked(req) && req.id !in reg0.ops ==> r.ops[req.id] == Entry(0, false)
    ensures forall k :: k in reg0.ops && (!Tracked(req) || k != req.id) ==> k in r.ops && r.ops[k] == reg0.ops[k]
  {
    if Tracked(req) then AddOperation(reg0, req.id) else reg0
  }

  /**
    Runs one request against an engine that accepts the inputs marked in
    `queued`, raises `events` and ends as `finish` says, starting from the
    registry `reg0` and the tag database `db0`. `stop` is the index of the
    callback whose handler stopped the batch, if any.
   */
  method RunBatch(req: Request, queued: seq<bool>, events: seq<EngineEvent>, finish: Finish,
                  reg0: Registry, db0: Tags.TagDb, frnOf: Tags.FrnLookup)
    returns (reply: Reply, stop: Option<nat>, reg: Registry, db: Tags.TagDb, ghost trace: seq<Tags.TagDb>)
    requires |queued| == |Inputs(req)|
    ensures MissingDestination(req) <==> reply == NoReply
    ensures reply == NoReply ==> stop == None && reg == reg0 && db == db0
    ensures reply.Reply? ==>
      && Ran(events, stop) <= |events| && TagsFollow(req, events, frnOf, trace, Ran(events, stop))
      && trace[0] == db0 && trace[|trace| - 1] == db
    ensures reply.Reply? ==> (stop.Some? ==> stop.value < |events|)
    ensures reply.Reply? ==>
      var start := StartOf(req, reg0);
      var regRan := RegAfter(req, start, events[..Ran(events, stop)]);
      var failed := QueueFailures(req, queued);
      && failed <= reply.results
      && Handled(req, events, start, reply.results[|failed|..], stop, regRan)
      && reg == (if Tracked(req) then RemoveOperation(regRan, req.id) else regRan)
    ensures reply.Reply? ==> reply.succeeded == (stop.None? && finish == Finished(true))
    ensures (reply.Reply? && Tracked(req)) ==> req.id !in reg.ops
    ensures Valid(reg0) ==> Valid(reg)
    ensures req.TestRecycle? ==> db == db0
    ensures (req.TestRecycle? && reply.Reply?) ==>
      var failed := QueueFailures(req, queued);
      && (stop.None? ==> reply.results == failed)
      && (stop.Some? ==> events[stop.value].PreDelete? &&
                         reply.results == failed + [Probe(events[stop.value].source, events[stop.value].recycle)])
    ensures req.RenameItem? ==> stop.None?
    ensures (req.DeleteItem? && req.permanently && stop.Some?) ==> events[stop.value].Tick?
    ensures (req.DeleteItem? && reply.Reply? && stop.Some? && events[stop.value].PreDelete?) ==>
      !req.permanently && !events[stop.value].recycle
    ensures (req.DeleteItem? && reply.Reply?) ==>
      forall k :: 0 <= k < |events| && events[k].PreDelete? && !req.permanently && !events[k].recycle ==>
        stop.Some? && stop.value <= k
    ensures (req.TestRecycle? && reply.Reply?) ==>
      forall k :: 0 <= k < |events| && events[k].PreDelete? ==> stop.Some? && stop.value <= k
    ensures (WatchesProgress(req) && reply.Reply?) ==>
      forall j, k :: 0 <= j < k < |events| && events[j] == CancelRequest(req.id) && events[k].Tick? ==>
        stop.Some? && stop.value <= k
  {
    if MissingDestination(req) {
      return NoReply, None, reg0, db0, [db0];
    }
    var failed := QueueFailures(req, queued);
    var start := StartOf(req, reg0);
    var emitted, regRan;
    emitted, stop, regRan, db, trace := Dispatch(req, events, start, db0, frnOf);
    reg := if Tracked(req) then RemoveOperation(regRan, req.id) else regRan;
    reply := Reply(stop.None? && finish == Finished(true), failed + emitted);
    assert reply.results[|failed|..] == emitted;

    if Valid(reg0) {
      CallbacksKeepValid(req, start, events[..Ran(events, stop)]);
    }
    if req.TestRecycle? {
      RecycleTestOutcome(req, events, start, emitted, stop, regRan);
    }
    if WatchesProgress(req) {
      forall j, k | 0 <= j < k < |events| && events[j] == CancelRequest(req.id) && events[k].Tick?
        ensures stop.Some? && stop.value <= k
      {
        CancelThenTickStops(req, start, events, j, k);
        StopsBy(req, events, start, emitted, stop, regRan, k);
      }
    }
    if req.DeleteItem? || req.TestRecycle? {
      forall k | 0 <= k < |events| && events[k].PreDelete? && (req.TestRecycle? || (!req.permanently && !events[k].recycle))
        ensures stop.Some? && stop.value <= k
      {
        StopsBy(req, events, start, emitted, stop, regRan, k);
      }
    }
  }
}

=== FILE: first_file.dfy ===
/**
  `GetFirstFile`: the recycle test queues, for a folder, the first file found
  inside it instead of the folder itself. Shell items are an abstract tree
  here; a stream (such as a zip archive) counts as a file even though the
  shell also calls it a folder.
 */
module FirstFile {
  import opened Wrappers
  import opened Paths

  /** A shell item with its attributes and, for a folder, its children in enumeration order. */
  datatype Item = Item(path: Path, isFolder: bool, isStream: bool, children: seq<Item>)

  /** What the search accepts: not a folder, or a stream. */
  predicate FileLike(x: Item) {
    !x.isFolder || x.isStream
  }

  function Size(x: Item): (n: nat)
    ensures n >= 2
    decreases x
  {
    1 + SizeAll(x.children)
  }

  function SizeAll(cs: seq<Item>): (n: nat)
    ensures n >= 1
    decreases cs
  {
    if |cs| == 0 then 1 else Size(cs[0]) + SizeAll(cs[1..])
  }

  /** `y` is `x` or lies somewhere below it. */
  ghost predicate Within(x: Item, y: Item)
    decreases x
  {
    x == y || exists i :: 0 <= i < |x.children| && Within(x.children[i], y)
  }

  ghost predicate WithinAny(cs: seq<Item>, y: Item) {
    exists i :: 0 <= i < |cs| && Within(cs[i], y)
  }

  /** Some item of the tree rooted at `x` is file-like. */
  ghost predicate HasFile(x: Item) {
    exists y :: Within(x, y) && FileLike(y)
  }

  ghost predicate AnyHasFile(cs: seq<Item>) {
    exists i :: 0 <= i < |cs| && HasFile(cs[i])
  }

  /** The first file-like item among `cs`, if any. */
  function FirstFileLike(cs: seq<Item>): (r: Option<nat>)
    ensures r.Some? ==> r.value < |cs| && FileLike(cs[r.value]) && forall j :: 0 <= j < r.value ==> !FileLike(cs[j])
    ensures r.None? ==> forall j :: 0 <= j < |cs| ==> !FileLike(cs[j])
  {
    if |cs| == 0 then None
    else if FileLike(cs[0]) then Some(0)
    else match FirstFileLike(cs[1..])
      case Some(k) => Some(k + 1)
      case None => None
  }

  /**
    The item the recycle test queues for `x`: `x` itself when file-like;
    otherwise the first file-like child, else the first hit of the search in
    the subfolders in order, else nothing.
   */
  function GetFirstFile(x: Item): (r: Option<Item>)
    ensures r.Some? ==> FileLike(r.value)
    ensures FileLike(x) ==> r == Some(x)
    decreases Size(x), 1
  {
    if FileLike(x) then Some(x)
    else match FirstFileLike(x.children)
      case Some(k) => Some(x.children[k])
      case None => SearchSubfolders(x.children)
  }

  function SearchSubfolders(cs: seq<Item>): (r: Option<Item>)
    ensures r.Some? ==> FileLike(r.value)
    ensures |cs| == 0 ==> r.None?
    decreases SizeAll(cs), 0
  {
    if |cs| == 0 then None
    else
      var hit := if FileLike(cs[0]) then None else GetFirstFile(cs[0]);
      if hit.Some? then hit else SearchSubfolders(cs[1..])
  }

  /** The search finds a file-like item of the tree, and finds one whenever the tree holds one. */
  lemma {:induction false} GetFirstFileSound(x: Item)
    ensures GetFirstFile(x).Some? ==> FileLike(GetFirstFile(x).value) && Within(x, GetFirstFile(x).value)
    ensures GetFirstFile(x).None? <==> !HasFile(x)
    decreases Size(x), 1
  {
    if FileLike(x) {
      assert Within(x, x);
    } else {
      match FirstFileLike(x.children)
      case Some(k) =>
        assert Within(x.children[k], x.children[k]);
        assert Within(x, x.children[k]);
      case None =>
        SearchSubfoldersSound(x.children);
        var r := SearchSubfolders(x.children);
        if r.Some? {
          var i :| 0 <= i < |x.children| && Within(x.children[i], r.value);
          assert Within(x, r.value);
        } else {
          forall y | Within(x, y) ensures !FileLike(y) {
            if x != y {
              var i :| 0 <= i < |x.children| && Within(x.children[i], y);
              assert HasFile(x.children[i]) ==> AnyHasFile(x.children);
            }
          }
        }
    }
  }

  lemma {:induction false} SearchSubfoldersSound(cs: seq<Item>)
    requires forall j :: 0 <= j < |cs| ==> !FileLike(cs[j])
    ensures SearchSubfolders(cs).Some? ==> FileLike(SearchSubfolders(cs).value) && WithinAny(cs, SearchSubfolders(cs).value)
    ensures SearchSubfolders(cs).None? <==> !AnyHasFile(cs)
    decreases SizeAll(cs), 0
  {
    if |cs| > 0 {
      GetFirstFileSound(cs[0]);
      SearchSubfoldersSound(cs[1..]);
      var hit := GetFirstFile(cs[0]);
      if hit.Some? {
        assert Within(cs[0], hit.value);
      } else {
        var rest := SearchSubfolders(cs[1..]);
        if rest.Some? {
          var i :| 0 <= i < |cs[1..]| && Within(cs[1..][i], rest.value);
          assert Within(cs[i + 1], rest.value);
        }
        if AnyHasFile(cs) {
          var i :| 0 <= i < |cs| && HasFile(cs[i]);
          assert i > 0 && cs[1..][i - 1] == cs[i];
        }
      }
    }
  }

  /** The item the recycle test queues for `x`: the search's hit, or `x` itself when the search finds nothing. */
  function ProbeTarget(x: Item): (r: Item)
    ensures Within(x, r)
    ensures HasFile(x) ==> FileLike(r)
    ensures !HasFile(x) ==> r == x
  {
    GetFirstFileSound(x);
    GetFirstFile(x).GetOr(x)
  }

  /** A folder whose direct children include a file-like item yields the first of them. */
  lemma DirectChildFirst(x: Item, k: nat)
    requires !FileLike(x) && k < |x.children| && FileLike(x.children[k])
    requires forall j :: 0 <= j < k ==> !FileLike(x.children[j])
    ensures GetFirstFile(x) == Some(x.children[k])
  {
    var r := FirstFileLike(x.children);
    assert r.Some?;
    assert r.value == k;
  }
}

=== FILE: hresult.dfy ===
/**
  HRESULT codes as the handler sees them: 32-bit values read through a
  C# `(int)` cast, so codes with the top bit set are negative.
  The numeric values are those of the Windows SDK header winerror.h.
 */
module HResult {

  const TwoTo31: int := 0x8000_0000
  const TwoTo32: int := 0x1_0000_0000

  /** A value that fits a C# `int`. */
  predicate IsInt32(x: int) {
    -TwoTo31 <= x < TwoTo31
  }

  /** The C# `unchecked((int)u)` cast of a 32-bit unsigned value: it wraps around. */
  function AsInt32(u: nat): (r: int)
    requires u < TwoTo32
    ensures IsInt32(r)
    ensures (r - u) % TwoTo32 == 0
    ensures r < 0 <==> u >= TwoTo31
  {
    if u < TwoTo31 then u else u - TwoTo32
  }

  /** `HRESULT.Succeeded`: the severity bit is clear. */
  predicate Succeeded(hr: int) {
    hr >= 0
  }

  /** COPYENGINE_S_DONT_PROCESS_CHILDREN: a directory was handled as one item. */
  const DontProcessChildren: int := AsInt32(0x0027_0008)

  /** COPYENGINE_E_USER_CANCELLED. */
  const UserCancelled: int := AsInt32(0x8027_0000)

  /** COPYENGINE_E_RECYCLE_BIN_NOT_FOUND. */
  const RecycleBinNotFound: int := AsInt32(0x8027_0097)

  /** The code recorded for an input that could not even be queued. */
  const NotQueued: int := -1

  /** Which codes count as success: the subtree marker does, the failures and the queueing marker do not. */
  lemma CodesClassified()
    ensures Succeeded(DontProcessChildren)
    ensures !Succeeded(UserCancelled) && !Succeeded(RecycleBinNotFound) && !Succeeded(NotQueued)
    ensures UserCancelled != RecycleBinNotFound
  {
  }
}

=== FILE: paths.dfy ===
/**
  The path strings the handler manipulates, and the three .NET string and path
  routines its core relies on: ordinal `string.Replace`, `Path.Combine` and
  `Path.GetDirectoryName` (the last one simplified, see the README).
 */
module Paths {
  import opened Wrappers

  type Path = string

  predicate StartsWith(s: string, prefix: string) {
    |prefix| <= |s| && s[..|prefix|] == prefix
  }

  predicate EndsWith(s: string, suffix: string) {
    |suffix| <= |s| && s[|s| - |suffix|..] == suffix
  }

  /** `string.IsNullOrEmpty`, with `None` for `null`. */
  predicate IsNullOrEmpty(s: Option<string>) {
    s.None? || |s.value| == 0
  }

  predicate IsSeparator(c: char) {
    c == '\\' || c == '/'
  }

  predicate IsDriveLetter(c: char) {
    ('a' <= c <= 'z') || ('A' <= c <= 'Z')
  }

  /** `Path.IsPathRooted` on Windows: a leading separator or a drive prefix `X:`. */
  predicate IsRooted(s: string) {
    || (|s| >= 1 && IsSeparator(s[0]))
    || (|s| >= 2 && IsDriveLetter(s[0]) && s[1] == ':')
  }

  predicate HasSeparator(s: string) {
    exists i :: 0 <= i < |s| && IsSeparator(s[i])
  }

  // ---------------------------------------------------------------------------
  // Path.Combine

  /** `Path.Combine(first, second)` for two non-null strings. */
  function Combine(first: string, second: string): (r: string)
    ensures EndsWith(r, second)
    ensures |first| > 0 && !IsRooted(second) ==> StartsWith(r, first)
    ensures |first| > 0 && |second| > 0 && !IsRooted(second) ==> |r| > |first|
    ensures IsRooted(second) || |first| == 0 ==> r == second
  {
    if |first| == 0 then second
    else if |second| == 0 then first
    else if IsRooted(second) then second
    else if IsSeparator(first[|first| - 1]) || IsSeparator(second[0]) then first + second
    else first + "\\" + second
  }

  // ---------------------------------------------------------------------------
  // Path.GetDirectoryName (simplified: no root, UNC or separator normalisation)

  /** Index of the last separator in `s`, if any. */
  function LastSeparator(s: string): (r: Option<nat>)
    ensures r.Some? ==> r.value < |s| && IsSeparator(s[r.value])
    ensures r.Some? ==> forall j :: r.value < j < |s| ==> !IsSeparator(s[j])
    ensures r.None? ==> !HasSeparator(s)
  {
    if |s| == 0 then None
    else if IsSeparator(s[|s| - 1]) then Some(|s| - 1)
    else
      var r := LastSeparator(s[..|s| - 1]);
      assert forall j :: 0 <= j < |s| - 1 ==> s[..|s| - 1][j] == s[j];
      r
  }

  /** The directory part of `p`: everything before its last separator, or "" if it has none. */
  function DirectoryName(p: Path): (r: Path)
    ensures StartsWith(p, r)
    ensures HasSeparator(p) ==> |r| < |p| && IsSeparator(p[|r|])
    ensures HasSeparator(p) ==> forall j :: |r| < j < |p| ==> !IsSeparator(p[j])
    ensures !HasSeparator(p) ==> r == ""
  {
    match LastSeparator(p)
    case None => ""
    case Some(i) => p[..i]
  }

  /** Joining a plain name onto a directory and splitting it off again gives the directory back. */
  lemma DirectoryNameOfCombine(dir: Path, name: string)
    requires |dir| > 0 && !IsSeparator(dir[|dir| - 1])
    requires |name| > 0 && !HasSeparator(name) && !IsRooted(name)
    ensures DirectoryName(Combine(dir, name)) == dir
  {
    var c := Combine(dir, name);
    assert !IsSeparator(name[0]);
    assert c == dir + "\\" + name;
    assert c[|dir|] == '\\';
    assert forall j :: |dir| < j < |c| ==> c[j] == name[j - |dir| - 1];
    match LastSeparator(c)
    case None =>
      assert IsSeparator(c[|dir|]);
    case Some(i) =>
      assert i == |dir|;
  }

  // ---------------------------------------------------------------------------
  // string.Replace(old, new, StringComparison.Ordinal)

  /** `pattern` occurs in `s` starting at index `i`. */
  predicate OccursAt(s: string, pattern: string, i: int) {
    0 <= i && i + |pattern| <= |s| && s[i..i + |pattern|] == pattern
  }

  /** No occurrence of `pattern` starts anywhere in `s`. */
  predicate NoOccurrence(s: string, pattern: string) {
    forall i | 0 <= i <= |s| - |pattern| :: !OccursAt(s, pattern, i)
  }

  /** Left-to-right replacement of every non-overlapping occurrence of a non-empty pattern. */
  function ReplaceFrom(s: string, pattern: string, replacement: string): string
    requires |pattern| > 0
    decreases |s|
  {
    if |s| == 0 then ""
    else if StartsWith(s, pattern) then replacement + ReplaceFrom(s[|pattern|..], pattern, replacement)
    else [s[0]] + ReplaceFrom(s[1..], pattern, replacement)
  }

  /** `s.Replace(pattern, replacement, Ordinal)`; `None` where .NET throws (an empty pattern). */
  function ReplaceAll(s: string, pattern: string, replacement: string): (r: Option<string>)
    ensures r.Some? <==> |pattern| > 0
    ensures r.Some? && NoOccurrence(s, pattern) ==> r.value == s
    ensures (r.Some? && StartsWith(s, pattern) && NoOccurrence(s[|pattern|..], pattern)) ==>
              r.value == replacement + s[|pattern|..]
    ensures r.Some? && StartsWith(s, pattern) ==> StartsWith(r.value, replacement)
  {
    if |pattern| == 0 then None
    else
      ReplaceUnchanged(s, pattern, replacement);
      if StartsWith(s, pattern) then
        ReplaceUnchanged(s[|pattern|..], pattern, replacement);
        Some(ReplaceFrom(s, pattern, replacement))
      else
        Some(ReplaceFrom(s, pattern, replacement))
  }

  /** A string without the pattern comes back unchanged. */
  lemma {:induction false} ReplaceUnchanged(s: string, pattern: string, replacement: string)
    requires |pattern| > 0
    ensures NoOccurrence(s, pattern) ==> ReplaceFrom(s, pattern, replacement) == s
    decreases |s|
  {
    if |s| > 0 && NoOccurrence(s, pattern) {
      assert !OccursAt(s, pattern, 0);
      assert !StartsWith(s, pattern);
      var t := s[1..];
      forall i | OccursAt(t, pattern, i)
        ensures false
      {
        assert t[i..i + |pattern|] == s[i + 1..i + 1 + |pattern|];
        assert OccursAt(s, pattern, i + 1);
      }
      ReplaceUnchanged(t, pattern, replacement);
      assert [s[0]] + t == s;
    }
  }

  /** The path that `p`, lying under `src`, takes once `src` is renamed to `dest`. */
  function Relocate(p: Path, src: Path, dest: Path): (r: Path)
    requires StartsWith(p, src)
    ensures StartsWith(r, dest) && |r| == |p| - |src| + |dest|
  {
    dest + p[|src|..]
  }

  /** Renaming a prefix is injective. */
  lemma RelocateInjective(p: Path, q: Path, src: Path, dest: Path)
    requires StartsWith(p, src) && StartsWith(q, src)
    requires Relocate(p, src, dest) == Relocate(q, src, dest)
    ensures p == q
  {
    var a, b := p[|src|..], q[|src|..];
    assert dest + a == dest + b;
    assert a == (dest + a)[|dest|..];
    assert b == (dest + b)[|dest|..];
    assert p == src + a && q == src + b;
  }

  /** Two prefixes of the same path: the shorter is a prefix of the longer. */
  lemma PrefixesComparable(p: Path, a: Path, b: Path)
    requires StartsWith(p, a) && StartsWith(p, b)
    ensures StartsWith(a, b) || StartsWith(b, a)
  {
    if |b| <= |a| {
      assert a[..|b|] == p[..|b|];
    } else {
      assert b[..|a|] == p[..|a|];
    }
  }

  /** When neither of `src` and `dest` is a prefix of the other, nothing relocated lies under `src`. */
  lemma RelocatedLeavesSource(p: Path, src: Path, dest: Path)
    requires StartsWith(p, src)
    requires !StartsWith(dest, src) && !StartsWith(src, dest)
    ensures !StartsWith(Relocate(p, src, dest), src)
  {
  }
}

=== FILE: progress_handler.dfy ===
/**
  The progress registry shared by all running batches: a map from operation id
  to its progress percentage and cancellation flag, plus the "all operations
  completed" signal a shutdown waits on (a manual-reset event in the program,
  a boolean here). Every operation is a pure state transition.
 */
module ProgressHandler {

  type OpId = string

  /** One running operation: its last reported percentage and whether cancellation was requested. */
  datatype Entry = Entry(progress: int, canceled: bool)

  datatype Registry = Registry(ops: map<OpId, Entry>, completed: bool)

  /** The completed signal is set exactly when no operation is registered. */
  predicate Valid(r: Registry) {
    r.completed <==> r.ops == map[]
  }

  /** A fresh registry: no operations, and the completed signal initially set. */
  function Init(): (r: Registry)
    ensures Valid(r) && r.ops == map[]
  {
    Registry(map[], true)
  }

  /** Registers `id` with progress 0, keeping an existing entry as it is, and clears the completed signal. */
  function AddOperation(r: Registry, id: OpId): (r': Registry)
    ensures r'.ops.Keys == r.ops.Keys + {id}
    ensures id !in r.ops ==> r'.ops[id] == Entry(0, false)
    ensures forall k :: k in r.ops ==> r'.ops[k] == r.ops[k]
    ensures !r'.completed
  {
    var ops := if id in r.ops then r.ops else r.ops[id := Entry(0, false)];
    Registry(ops, false)
  }

  /** Unregisters `id`, setting the completed signal if nothing is left. */
  function RemoveOperation(r: Registry, id: OpId): (r': Registry)
    ensures r'.ops.Keys == r.ops.Keys - {id}
    ensures forall k :: k in r'.ops ==> r'.ops[k] == r.ops[k]
    ensures r'.ops == map[] ==> r'.completed
    ensures r'.ops != map[] ==> r'.completed == r.completed
  {
    var ops := r.ops - {id};
    Registry(ops, if ops == map[] then true else r.completed)
  }

  /** Records a new percentage for a registered operation; anything else is left alone. */
  function UpdateOperation(r: Registry, id: OpId, progress: int): (r': Registry)
    ensures r'.ops.Keys == r.ops.Keys && r'.completed == r.completed
    ensures id in r.ops ==> r'.ops[id] == Entry(progress, r.ops[id].canceled)
    ensures forall k :: k in r.ops && k != id ==> r'.ops[k] == r.ops[k]
  {
    if id in r.ops then Registry(r.ops[id := r.ops[id].(progress := progress)], r.completed) else r
  }

  /** Whether `id` must stop: its flag when registered, and `true` for an unknown id. */
  function CheckCanceled(r: Registry, id: OpId): (canceled: bool)
    ensures canceled <==> id !in r.ops || r.ops[id].canceled
  {
    if id in r.ops then r.ops[id].canceled else true
  }

  /** Marks a registered operation as canceled; an unknown id is ignored. */
  function TryCancel(r: Registry, id: OpId): (r': Registry)
    ensures r'.ops.Keys == r.ops.Keys && r'.completed == r.completed
    ensures id in r.ops ==> r'.ops[id] == Entry(r.ops[id].progress, true)
    ensures forall k :: k in r.ops && k != id ==> r'.ops[k] == r.ops[k]
  {
    if id in r.ops then Registry(r.ops[id := r.ops[id].(canceled := true)], r.completed) else r
  }

  /** What a shutdown waits for. */
  function Drained(r: Registry): (done: bool)
    requires Valid(r)
    ensures done <==> r.ops == map[]
  {
    r.completed
  }

  // ---------------------------------------------------------------------------
  // The completed signal across any sequence of calls

  /** The registry calls other code makes. */
  datatype Command = Add(id: OpId) | Remove(id: OpId) | Update(id: OpId, progress: int) | Cancel(id: OpId)

  function Apply(r: Registry, c: Command): Registry {
    match c
    case Add(id) => AddOperation(r, id)
    case Remove(id) => RemoveOperation(r, id)
    case Update(id, p) => UpdateOperation(r, id, p)
    case Cancel(id) => TryCancel(r, id)
  }

  function ApplyAll(r: Registry, cs: seq<Command>): Registry
    decreases |cs|
  {
    if |cs| == 0 then r else ApplyAll(Apply(r, cs[0]), cs[1..])
  }

  lemma StepKeepsValid(r: Registry, c: Command)
    requires Valid(r)
    ensures Valid(Apply(r, c))
  {
  }

  /** Starting from a fresh registry, the completed signal is set exactly when it is empty, whatever the calls. */
  lemma {:induction false} CompletedIffEmpty(r: Registry, cs: seq<Command>)
    requires Valid(r)
    ensures Valid(ApplyAll(r, cs))
    decreases |cs|
  {
    if |cs| > 0 {
      StepKeepsValid(r, cs[0]);
      CompletedIffEmpty(Apply(r, cs[0]), cs[1..]);
    }
  }

  lemma FromInitCompletedIffEmpty(cs: seq<Command>)
    ensures Valid(ApplyAll(Init(), cs))
  {
    CompletedIffEmpty(Init(), cs);
  }

  // ---------------------------------------------------------------------------
  // Cancellation and registration laws

  /** Canceling twice is canceling once, the entry stays, and afterwards the operation reads as canceled. */
  lemma CancelLaws(r: Registry, id: OpId)
    ensures TryCancel(TryCancel(r, id), id) == TryCancel(r, id)
    ensures TryCancel(r, id).ops.Keys == r.ops.Keys
    ensures CheckCanceled(TryCancel(r, id), id)
    ensures id !in r.ops ==> TryCancel(r, id) == r
  {
  }

  /** Progress updates never lift a cancellation. */
  lemma UpdateKeepsCanceled(r: Registry, id: OpId, other: OpId, progress: int)
    ensures CheckCanceled(UpdateOperation(r, other, progress), id) == CheckCanceled(r, id)
  {
  }

  /** Registering a fresh id and unregistering it again gives back the original operations. */
  lemma AddThenRemove(r: Registry, id: OpId)
    requires Valid(r) && id !in r.ops
    ensures RemoveOperation(AddOperation(r, id), id) == r
  {
    var r2 := RemoveOperation(AddOperation(r, id), id);
    assert r2.ops == r.ops;
  }

  /** Once unregistered, an operation reads as canceled, so a late progress callback stops the batch. */
  lemma RemovedReadsCanceled(r: Registry, id: OpId)
    ensures CheckCanceled(RemoveOperation(r, id), id)
  {
  }

  // ---------------------------------------------------------------------------
  // Aggregate progress

  function Weight(e: Entry): int {
    if e.canceled then 0 else e.progress
  }

  function Counted(e: Entry): int {
    if e.canceled then 0 else 1
  }

  /** The sum of `f` over the entries of `ids`. */
  ghost function Total(ops: map<OpId, Entry>, ids: set<OpId>, f: Entry -> int): int
    requires ids <= ops.Keys
    decreases ids
  {
    if ids == {} then 0
    else
      var k :| k in ids;
      f(ops[k]) + Total(ops, ids - {k}, f)
  }

  /** The sum does not depend on the order the entries are taken in. */
  lemma {:induction false} TotalSplit(ops: map<OpId, Entry>, ids: set<OpId>, k: OpId, f: Entry -> int)
    requires ids <= ops.Keys && k in ids
    ensures Total(ops, ids, f) == f(ops[k]) + Total(ops, ids - {k}, f)
    decreases ids
  {
    var j :| j in ids && Total(ops, ids, f) == f(ops[j]) + Total(ops, ids - {j}, f);
    if j != k {
      TotalSplit(ops, ids - {j}, k, f);
      TotalSplit(ops, ids - {k}, j, f);
      assert ids - {j} - {k} == ids - {k} - {j};
    }
  }

  /** C#'s `(int)` of a double quotient truncates toward zero (Dafny's `/` is Euclidean). */
  function TruncDiv(a: int, b: int): (q: int)
    requires b > 0
    ensures a >= 0 ==> q >= 0 && q * b <= a < q * b + b
    ensures a < 0 ==> q <= 0 && q * b - b < a <= q * b
  {
    if a >= 0 then
      assert a == b * (a / b) + a % b;
      a / b
    else
      var m := -a;
      assert m == b * (m / b) + m % b;
      -(m / b)
  }

  lemma MulMonotone(x: int, y: int, n: int)
    requires x <= y && n >= 0
    ensures x * n <= y * n
  {
    assert y * n - x * n == (y - x) * n;
  }

  /** Truncated division undoes an exact multiplication. */
  lemma TruncDivExact(v: int, n: int)
    requires n > 0
    ensures TruncDiv(v * n, n) == v
  {
    var q := TruncDiv(v * n, n);
    if q < v {
      MulMonotone(q + 1, v, n);
    } else if q > v {
      MulMonotone(v + 1, q, n);
    }
  }

  /** The truncated mean progress of the operations that are not canceled, or 0 if there are none. */
  ghost function MeanOfActive(ops: map<OpId, Entry>): (m: int)
    ensures (forall k :: k in ops ==> ops[k].canceled) ==> m == 0
  {
    var n := Total(ops, ops.Keys, Counted);
    CountedNonNegative(ops, ops.Keys);
    AllCanceledNotCounted(ops);
    if n == 0 then 0 else TruncDiv(Total(ops, ops.Keys, Weight), n)
  }

  lemma {:induction false} CountedNonNegative(ops: map<OpId, Entry>, ids: set<OpId>)
    requires ids <= ops.Keys
    ensures 0 <= Total(ops, ids, Counted) <= |ids|
    decreases ids
  {
    if ids != {} {
      var k :| k in ids;
      TotalSplit(ops, ids, k, Counted);
      CountedNonNegative(ops, ids - {k});
    }
  }

  /** The `Progress` getter: iterates the registry, summing and counting the entries not canceled. */
  method Progress(r: Registry) returns (p: int)
    ensures p == MeanOfActive(r.ops)
  {
    var rest := r.ops.Keys;
    var sum, n := 0, 0;
    while rest != {}
      invariant rest <= r.ops.Keys
      invariant sum + Total(r.ops, rest, Weight) == Total(r.ops, r.ops.Keys, Weight)
      invariant n + Total(r.ops, rest, Counted) == Total(r.ops, r.ops.Keys, Counted)
      invariant n >= 0
      decreases rest
    {
      var k :| k in rest;
      TotalSplit(r.ops, rest, k, Weight);
      TotalSplit(r.ops, rest, k, Counted);
      if !r.ops[k].canceled {
        sum, n := sum + r.ops[k].progress, n + 1;
      }
      rest := rest - {k};
    }
    p := if n == 0 then 0 else TruncDiv(sum, n);
  }

  /** Each entry not canceled contributes its percentage, and at most 100 when percentages are in range. */
  lemma {:induction false} WeightBounded(ops: map<OpId, Entry>, ids: set<OpId>)
    requires ids <= ops.Keys
    requires forall k :: k in ops ==> 0 <= ops[k].progress <= 100
    ensures 0 <= Total(ops, ids, Weight) <= 100 * Total(ops, ids, Counted)
    decreases ids
  {
    if ids != {} {
      var k :| k in ids;
      TotalSplit(ops, ids, k, Weight);
      TotalSplit(ops, ids, k, Counted);
      WeightBounded(ops, ids - {k});
    }
  }

  /** With every percentage between 0 and 100, so is the aggregate. */
  lemma MeanInRange(ops: map<OpId, Entry>)
    requires forall k :: k in ops ==> 0 <= ops[k].progress <= 100
    ensures 0 <= MeanOfActive(ops) <= 100
  {
    WeightBounded(ops, ops.Keys);
    CountedNonNegative(ops, ops.Keys);
    var n := Total(ops, ops.Keys, Counted);
    if n > 0 {
      var q := TruncDiv(Total(ops, ops.Keys, Weight), n);
      if q > 100 {
        MulMonotone(101, q, n);
      }
    }
  }

  lemma {:induction false} WeightUniform(ops: map<OpId, Entry>, ids: set<OpId>, v: int)
    requires ids <= ops.Keys
    requires forall k :: k in ids && !ops[k].canceled ==> ops[k].progress == v
    ensures Total(ops, ids, Weight) == v * Total(ops, ids, Counted)
    decreases ids
  {
    if ids != {} {
      var k :| k in ids;
      TotalSplit(ops, ids, k, Weight);
      TotalSplit(ops, ids, k, Counted);
      WeightUniform(ops, ids - {k}, v);
    }
  }

  /** When every operation still running reports the same percentage, that is the aggregate. */
  lemma MeanOfUniform(ops: map<OpId, Entry>, v: int)
    requires forall k :: k in ops && !ops[k].canceled ==> ops[k].progress == v
    requires exists k :: k in ops && !ops[k].canceled
    ensures MeanOfActive(ops) == v
  {
    WeightUniform(ops, ops.Keys, v);
    var k :| k in ops && !ops[k].canceled;
    TotalSplit(ops, ops.Keys, k, Counted);
    CountedNonNegative(ops, ops.Keys - {k});
    TruncDivExact(v, Total(ops, ops.Keys, Counted));
  }

  /** Canceled entries are ignored: with none running the aggregate is 0. */
  lemma {:induction false} NoneActive(ops: map<OpId, Entry>, ids: set<OpId>)
    requires ids <= ops.Keys
    requires forall k :: k in ids ==> ops[k].canceled
    ensures Total(ops, ids, Counted) == 0
    decreases ids
  {
    if ids != {} {
      var k :| k in ids;
      TotalSplit(ops, ids, k, Counted);
      NoneActive(ops, ids - {k});
    }
  }

  lemma AllCanceledNotCounted(ops: map<OpId, Entry>)
    ensures (forall k :: k in ops ==> ops[k].canceled) ==> Total(ops, ops.Keys, Counted) == 0
  {
    if forall k :: k in ops ==> ops[k].canceled {
      NoneActive(ops, ops.Keys);
    }
  }

  /** Two operations at 40% and 60% aggregate to 50%; cancel the second and 40% remains; cancel both and 0. */
  lemma FortySixty(a: OpId, b: OpId)
    requires a != b
    ensures MeanOfActive(map[a := Entry(40, false), b := Entry(60, false)]) == 50
    ensures MeanOfActive(map[a := Entry(40, false), b := Entry(60, true)]) == 40
    ensures MeanOfActive(map[a := Entry(40, true), b := Entry(60, true)]) == 0
    ensures MeanOfActive(map[]) == 0
  {
    var m := map[a := Entry(40, false), b := Entry(60, false)];
    TotalSplit(m, m.Keys, a, Weight);
    TotalSplit(m, m.Keys - {a}, b, Weight);
    TotalSplit(m, m.Keys, a, Counted);
    TotalSplit(m, m.Keys - {a}, b, Counted);
    assert m.Keys - {a} - {b} == {};
    var m2 := map[a := Entry(40, false), b := Entry(60, true)];
    assert a in m2 && !m2[a].canceled;
    MeanOfUniform(m2, 40);
  }
}

=== FILE: shell_events.dfy ===
/**
  The per-item events the shell copy engine raises after it handles an item,
  and the destination path the handler derives from them. The same derivation
  feeds both the reported item result and the tag database update.
 */
module ShellEvents {
  import opened Wrappers
  import opened Paths

  /** The operation type the handler passes along with an item event ("delete", "rename", "move", "copy"). */
  datatype ItemOp = Delete | Rename | Move | Copy

  /**
    The arguments of a Post…Item event: the engine's result code, the parsing
    paths of the source item, the destination folder and the destination item
    (each `None` when the engine gives none), and the new name.
   */
  datatype ItemEvent = ItemEvent(
    result: int,
    source: Path,
    destFolder: Option<Path>,
    name: Option<string>,
    destItem: Option<Path>)

  /**
    Where the item ended up, or `None` when it has no surviving path: a delete
    takes the destination item's path (the recycled item, if any), a rename
    joins the new name to the source's folder, and a move or copy joins the new
    name to the destination folder.
   */
  function Destination(op: ItemOp, e: ItemEvent): (r: Option<Path>)
    ensures op == Delete ==> r == e.destItem
    ensures op == Rename ==> (r.Some? <==> !IsNullOrEmpty(e.name))
    ensures (op == Move || op == Copy) ==> (r.Some? <==> e.destFolder.Some? && !IsNullOrEmpty(e.name))
    ensures op != Delete && r.Some? ==> EndsWith(r.value, e.name.value)
    ensures ((op == Move || op == Copy) && r.Some? && |e.destFolder.value| > 0 && !IsRooted(e.name.value)) ==>
              StartsWith(r.value, e.destFolder.value) && |r.value| > |e.destFolder.value|
  {
    match op
    case Delete => e.destItem
    case Rename =>
      if !IsNullOrEmpty(e.name) then Some(Combine(DirectoryName(e.source), e.name.value)) else None
    case _ =>
      if e.destFolder.Some? && !IsNullOrEmpty(e.name) then Some(Combine(e.destFolder.value, e.name.value)) else None
  }

  /** Renaming to a plain name keeps the item in its folder. */
  lemma RenameStaysInFolder(e: ItemEvent)
    requires e.name.Some? && |e.name.value| > 0
    requires !HasSeparator(e.name.value) && !IsRooted(e.name.value)
    requires var dir := DirectoryName(e.source); |dir| > 0 && !IsSeparator(dir[|dir| - 1])
    ensures Destination(Rename, e).Some?
    ensures DirectoryName(Destination(Rename, e).value) == DirectoryName(e.source)
  {
    DirectoryNameOfCombine(DirectoryName(e.source), e.name.value);
  }

  /** Moving or copying under a plain name lands directly inside the destination folder. */
  lemma MoveLandsInFolder(op: ItemOp, e: ItemEvent)
    requires op == Move || op == Copy
    requires e.destFolder.Some? && |e.destFolder.value| > 0
    requires !IsSeparator(e.destFolder.value[|e.destFolder.value| - 1])
    requires e.name.Some? && |e.name.value| > 0
    requires !HasSeparator(e.name.value) && !IsRooted(e.name.value)
    ensures Destination(op, e).Some?
    ensures DirectoryName(Destination(op, e).value) == e.destFolder.value
  {
    DirectoryNameOfCombine(e.destFolder.value, e.name.value);
  }
}

=== FILE: tags.dfy ===
/**
  Tag propagation: after the copy engine reports an item as handled, the tag
  database is rewritten so that tags follow the file (move, rename, recycle),
  are duplicated (copy) or are dropped (no surviving path). When the engine
  handled a whole directory as one item, the records under it are rewritten
  by replacing the source path inside each of their paths.
 */
module Tags {
  import opened Wrappers
  import opened Paths
  import opened ShellEvents
  import HResult

  /** A file reference number: the identity of a file that survives renames. */
  type Frn = nat
  type Tag = string

  /** One row of the tag database. */
  datatype Record = Record(frn: Option<Frn>, tags: seq<Tag>)

  type TagDb = map<Path, Record>

  /**
    What the file identity lookup did for a path: it threw, and the guarded
    update is skipped, or it returned an identity or null.
   */
  datatype Lookup = Threw | Returned(frn: Option<Frn>)

  /** The file identity lookup, outside this code. */
  type FrnLookup = Path -> Lookup

  // ---------------------------------------------------------------------------
  // The three database primitives

  /** The tags recorded for `p`, `None` (null) when it has no record. */
  function GetTags(db: TagDb, p: Path): (r: Option<seq<Tag>>)
    ensures r.Some? <==> p in db
    ensures r.Some? ==> r.value == db[p].tags
  {
    if p in db then Some(db[p].tags) else None
  }

  /** Writes the record of `p`, or removes it when the tags are null. */
  function SetTags(db: TagDb, p: Path, frn: Option<Frn>, tags: Option<seq<Tag>>): (r: TagDb)
    ensures tags.None? ==> r.Keys == db.Keys - {p}
    ensures tags.Some? ==> r.Keys == db.Keys + {p} && r[p] == Record(frn, tags.value)
    ensures forall q :: q in r && q != p ==> r[q] == db[q]
  {
    if tags.None? then db - {p} else db[p := Record(frn, tags.value)]
  }

  /** Moves the record of `from` to `to` with a fresh identity; nothing happens if `from` has none. */
  function UpdateTag(db: TagDb, from: Path, frn: Option<Frn>, to: Path): (r: TagDb)
    ensures from !in db ==> r == db
    ensures from in db ==> r.Keys == db.Keys - {from} + {to} && r[to] == Record(frn, db[from].tags)
    ensures forall q :: q in r && q != to ==> q in db && r[q] == db[q]
  {
    if from in db then (db - {from})[to := Record(frn, db[from].tags)] else db
  }

  /** Re-keying a record is removing it and writing its tags at the new path. */
  lemma UpdateTagIsRemoveThenSet(db: TagDb, from: Path, frn: Option<Frn>, to: Path)
    requires from in db
    ensures UpdateTag(db, from, frn, to) == SetTags(SetTags(db, from, None, None), to, frn, GetTags(db, from))
  {
  }

  // ---------------------------------------------------------------------------
  // The item itself

  /**
    The update for the reported item: with no destination its record is
    removed; otherwise, once the destination's identity is known, a copy
    writes the source's tags (or their absence) at the destination and any
    other operation moves the source's record there. A failed identity lookup
    skips the update.
   */
  function PropagateItem(db: TagDb, op: ItemOp, e: ItemEvent, frnOf: FrnLookup): (r: TagDb)
    ensures Destination(op, e).None? ==>
              r.Keys == db.Keys - {e.source} && forall q :: q in r ==> r[q] == db[q]
    ensures Destination(op, e).Some? && frnOf(Destination(op, e).value).Threw? ==> r == db
    ensures forall q :: q in r && q != e.source && Some(q) != Destination(op, e) ==> q in db && r[q] == db[q]
    ensures forall q :: q in db && q != e.source && Some(q) != Destination(op, e) ==> q in r
    ensures (op == Copy && Destination(op, e).Some? && frnOf(Destination(op, e).value).Returned?) ==>
              var d := Destination(op, e).value;
              && (d in r <==> e.source in db)
              && (e.source in db ==> r[d] == Record(frnOf(d).frn, db[e.source].tags))
              && (e.source != d ==> (e.source in r <==> e.source in db))
              && (e.source != d && e.source in db ==> r[e.source] == db[e.source])
    ensures (op != Copy && Destination(op, e).Some? && frnOf(Destination(op, e).value).Returned?) ==>
              var d := Destination(op, e).value;
              && (e.source !in db ==> r == db)
              && (e.source in db ==> d in r && r[d] == Record(frnOf(d).frn, db[e.source].tags))
              && (e.source != d ==> e.source !in r)
  {
    match Destination(op, e)
    case None => SetTags(db, e.source, None, None)
    case Some(d) =>
      match frnOf(d)
      case Threw => db
      case Returned(f) =>
        if op == Copy then SetTags(db, d, f, GetTags(db, e.source))
        else UpdateTag(db, e.source, f, d)
  }

  // ---------------------------------------------------------------------------
  // The records under a directory handled as one item

  /** The records under `src`: those whose path starts with it. */
  function UnderPath(db: TagDb, src: Path): (s: TagDb)
    ensures forall p :: p in s <==> p in db && StartsWith(p, src)
    ensures forall p :: p in s ==> s[p] == db[p]
  {
    map p | p in db && StartsWith(p, src) :: db[p]
  }

  /** The rewrite of paths under `src` to paths under `dest`, with identities looked up by `frnOf`. */
  datatype Rewrite = Rewrite(src: Path, dest: Path, frnOf: FrnLookup) {

    /**
      Where the record at `t` goes and the identity looked up there; `None`
      when its update is skipped because the replacement or the lookup threw.
     */
    function Target(t: Path): (r: Option<(Path, Option<Frn>)>)
      ensures r.Some? <==> |src| > 0 && frnOf(ReplaceAll(t, src, dest).value).Returned?
      ensures r.Some? ==> Some(r.value.0) == ReplaceAll(t, src, dest) && frnOf(r.value.0) == Returned(r.value.1)
      ensures r.Some? && StartsWith(t, src) ==> StartsWith(r.value.0, dest)
    {
      match ReplaceAll(t, src, dest)
      case None => None
      case Some(sub) =>
        match frnOf(sub)
        case Threw => None
        case Returned(f) => Some((sub, f))
    }

    /** The paths the records of `keys` are rewritten to. */
    function Targets(keys: set<Path>): set<Path> {
      set t | t in keys && Target(t).Some? :: Target(t).value.0
    }

    /** The records of `keys` that are actually rewritten. */
    function Moved(keys: set<Path>): set<Path> {
      set t | t in keys && Target(t).Some?
    }

    /** No two records of `keys` are rewritten to the same path. */
    predicate Injective(keys: set<Path>) {
      forall t1, t2 ::
        (t1 in keys && t2 in keys && Target(t1).Some? && Target(t2).Some? && Target(t1).value.0 == Target(t2).value.0)
        ==> t1 == t2
    }

    /** No record of `keys` is rewritten onto another record of `keys`. */
    predicate NoChain(keys: set<Path>) {
      forall t1, t2 :: t1 in keys && t2 in keys && t1 != t2 && Target(t1).Some? ==> Target(t1).value.0 != t2
    }

    lemma TargetsStep(keys: set<Path>, t: Path)
      ensures Targets(keys + {t}) == Targets(keys) + (if Target(t).Some? then {Target(t).value.0} else {})
      ensures Moved(keys + {t}) == Moved(keys) + (if Target(t).Some? then {t} else {})
    {
      if Target(t).Some? {
        assert Target(t).value.0 in Targets(keys + {t});
      }
    }
  }

  /** Removing the record of every path in `keys`, one by one in any order. */
  method RemoveAll(db: TagDb, keys: set<Path>) returns (r: TagDb)
    ensures r.Keys == db.Keys - keys
    ensures forall p :: p in r ==> r[p] == db[p]
  {
    r := db;
    var rest := keys;
    while rest != {}
      invariant rest <= keys
      invariant r.Keys == db.Keys - (keys - rest)
      invariant forall p :: p in r ==> r[p] == db[p]
      decreases rest
    {
      var t :| t in rest;
      r := SetTags(r, t, None, None);
      rest := rest - {t};
    }
  }

  /** Every record of `db` outside `excluded` is in `r`, unchanged. */
  predicate Kept(db: TagDb, r: TagDb, excluded: set<Path>) {
    forall p :: p in db && p !in excluded ==> p in r && r[p] == db[p]
  }

  /** Every record of `r` was already in `db` or has a path in `extra`. */
  predicate Bounded(db: TagDb, r: TagDb, extra: set<Path>) {
    forall p :: p in r ==> p in db || p in extra
  }

  /** Each record of `done` that is rewritten has its tags, with the new identity, at its target in `r`. */
  predicate Copied(db: TagDb, r: TagDb, rw: Rewrite, done: set<Path>)
    requires done <= db.Keys
  {
    forall t :: t in done && rw.Target(t).Some? ==>
      rw.Target(t).value.0 in r && r[rw.Target(t).value.0] == Record(rw.Target(t).value.1, db[t].tags)
  }

  /** As `Copied`, and each such record has left its old path unless the target is that same path. */
  predicate Relocated(db: TagDb, r: TagDb, rw: Rewrite, done: set<Path>)
    requires done <= db.Keys
  {
    && Copied(db, r, rw, done)
    && forall t :: t in done && rw.Target(t).Some? && rw.Target(t).value.0 != t ==> t !in r
  }

  /** One iteration of the copy loop over the subtree. */
  function CopyOne(r: TagDb, rw: Rewrite, t: Path, tags: seq<Tag>): (r': TagDb)
    ensures rw.Target(t).None? ==> r' == r
    ensures rw.Target(t).Some? ==>
      && r'.Keys == r.Keys + {rw.Target(t).value.0}
      && r'[rw.Target(t).value.0] == Record(rw.Target(t).value.1, tags)
    ensures forall q :: q in r && (rw.Target(t).None? || q != rw.Target(t).value.0) ==> q in r' && r'[q] == r[q]
  {
    match rw.Target(t)
    case None => r
    case Some((sub, f)) => SetTags(r, sub, f, Some(tags))
  }

  /** One iteration of the move loop over the subtree. */
  function MoveOne(r: TagDb, rw: Rewrite, t: Path): (r': TagDb)
    ensures rw.Target(t).None? || t !in r ==> r' == r
    ensures rw.Target(t).Some? && t in r ==>
      && r'.Keys == r.Keys - {t} + {rw.Target(t).value.0}
      && r'[rw.Target(t).value.0] == Record(rw.Target(t).value.1, r[t].tags)
    ensures forall q :: q in r' && (rw.Target(t).None? || q != rw.Target(t).value.0) ==> q in r && r'[q] == r[q]
  {
    match rw.Target(t)
    case None => r
    case Some((sub, f)) => UpdateTag(r, t, f, sub)
  }

  lemma CopyStep(db: TagDb, rw: Rewrite, keys: set<Path>, done: set<Path>, t: Path, r: TagDb)
    requires done <= keys <= db.Keys && t in keys && t !in done
    requires Kept(db, r, rw.Targets(done)) && Bounded(db, r, rw.Targets(done))
    requires rw.Injective(keys) ==> Copied(db, r, rw, done)
    ensures Kept(db, CopyOne(r, rw, t, db[t].tags), rw.Targets(done + {t}))
    ensures Bounded(db, CopyOne(r, rw, t, db[t].tags), rw.Targets(done + {t}))
    ensures rw.Injective(keys) ==> Copied(db, CopyOne(r, rw, t, db[t].tags), rw, done + {t})
  {
    rw.TargetsStep(done, t);
  }

  lemma MoveStep(db: TagDb, rw: Rewrite, keys: set<Path>, done: set<Path>, t: Path, r: TagDb)
    requires done <= keys <= db.Keys && t in keys && t !in done
    requires Kept(db, r, rw.Moved(done) + rw.Targets(done)) && Bounded(db, r, rw.Targets(done))
    requires rw.Injective(keys) && rw.NoChain(keys) ==> Relocated(db, r, rw, done)
    ensures Kept(db, MoveOne(r, rw, t), rw.Moved(done + {t}) + rw.Targets(done + {t}))
    ensures Bounded(db, MoveOne(r, rw, t), rw.Targets(done + {t}))
    ensures rw.Injective(keys) && rw.NoChain(keys) ==> Relocated(db, MoveOne(r, rw, t), rw, done + {t})
  {
    rw.TargetsStep(done, t);
    MoveStepFrame(db, rw, done, t, r);
    if rw.Injective(keys) && rw.NoChain(keys) {
      MoveStepRelocated(db, rw, keys, done, t, r);
    }
  }

  /** The part of `MoveStep` that holds for any rewrite: the frame and the bound. */
  lemma MoveStepFrame(db: TagDb, rw: Rewrite, done: set<Path>, t: Path, r: TagDb)
    requires Kept(db, r, rw.Moved(done) + rw.Targets(done)) && Bounded(db, r, rw.Targets(done))
    requires rw.Targets(done + {t}) == rw.Targets(done) + (if rw.Target(t).Some? then {rw.Target(t).value.0} else {})
    requires rw.Moved(done + {t}) == rw.Moved(done) + (if rw.Target(t).Some? then {t} else {})
    ensures Kept(db, MoveOne(r, rw, t), rw.Moved(done + {t}) + rw.Targets(done + {t}))
    ensures Bounded(db, MoveOne(r, rw, t), rw.Targets(done + {t}))
  {
  }

  /** The part of `MoveStep` for a rewrite that neither merges nor chains. */
  lemma MoveStepRelocated(db: TagDb, rw: Rewrite, keys: set<Path>, done: set<Path>, t: Path, r: TagDb)
    requires done <= keys <= db.Keys && t in keys && t !in done
    requires Kept(db, r, rw.Moved(done) + rw.Targets(done))
    requires rw.Targets(done + {t}) == rw.Targets(done) + (if rw.Target(t).Some? then {rw.Target(t).value.0} else {})
    requires rw.Injective(keys) && rw.NoChain(keys) && Relocated(db, r, rw, done)
    ensures Relocated(db, MoveOne(r, rw, t), rw, done + {t})
  {
    MoveStepCopied(db, rw, keys, done, t, r);
    MoveStepLeft(db, rw, keys, done, t, r);
  }

  lemma MoveStepCopied(db: TagDb, rw: Rewrite, keys: set<Path>, done: set<Path>, t: Path, r: TagDb)
    requires done <= keys <= db.Keys && t in keys && t !in done
    requires Kept(db, r, rw.Moved(done) + rw.Targets(done))
    requires rw.Injective(keys) && rw.NoChain(keys) && Copied(db, r, rw, done)
    ensures Copied(db, MoveOne(r, rw, t), rw, done + {t})
  {
    if rw.Target(t).Some? {
      assert t !in rw.Targets(done);
      assert t in r && r[t] == db[t];
    }
  }

  lemma MoveStepLeft(db: TagDb, rw: Rewrite, keys: set<Path>, done: set<Path>, t: Path, r: TagDb)
    requires done <= keys <= db.Keys && t in keys && t !in done
    requires rw.NoChain(keys)
    requires forall u :: u in done && rw.Target(u).Some? && rw.Target(u).value.0 != u ==> u !in r
    ensures forall u :: u in done + {t} && rw.Target(u).Some? && rw.Target(u).value.0 != u ==> u !in MoveOne(r, rw, t)
  {
  }

  /**
    Copies the tags of every record under `rw.src` to its rewritten path, in
    whatever order the database lists them. Originals stay; when no two
    records share a rewritten path, each copy carries its original's tags.
   */
  method CopySubtree(db: TagDb, rw: Rewrite) returns (r: TagDb)
    ensures Kept(db, r, rw.Targets(UnderPath(db, rw.src).Keys))
    ensures Bounded(db, r, rw.Targets(UnderPath(db, rw.src).Keys))
    ensures rw.Injective(UnderPath(db, rw.src).Keys) ==> Copied(db, r, rw, UnderPath(db, rw.src).Keys)
  {
    var snap := UnderPath(db, rw.src);
    var rest := snap.Keys;
    r := db;
    while rest != {}
      invariant rest <= snap.Keys
      invariant Kept(db, r, rw.Targets(snap.Keys - rest))
      invariant Bounded(db, r, rw.Targets(snap.Keys - rest))
      invariant rw.Injective(snap.Keys) ==> Copied(db, r, rw, snap.Keys - rest)
      decreases rest
    {
      var t :| t in rest;
      assert snap[t] == db[t];
      assert snap.Keys - (rest - {t}) == (snap.Keys - rest) + {t};
      CopyStep(db, rw, snap.Keys, snap.Keys - rest, t, r);
      r := CopyOne(r, rw, t, snap[t].tags);
      rest := rest - {t};
    }
  }

  /**
    Moves every record under `rw.src` to its rewritten path, in whatever
    order the database lists them. Records outside the subtree and its
    targets are untouched; when the rewrite neither merges two records nor
    lands one on another, each record ends up exactly at its target.
   */
  method MoveSubtree(db: TagDb, rw: Rewrite) returns (r: TagDb)
    ensures var keys := UnderPath(db, rw.src).Keys; Kept(db, r, rw.Moved(keys) + rw.Targets(keys))
    ensures Bounded(db, r, rw.Targets(UnderPath(db, rw.src).Keys))
    ensures var keys := UnderPath(db, rw.src).Keys;
      rw.Injective(keys) && rw.NoChain(keys) ==> Relocated(db, r, rw, keys)
  {
    var snap := UnderPath(db, rw.src);
    var rest := snap.Keys;
    r := db;
    while rest != {}
      invariant rest <= snap.Keys
      invariant Kept(db, r, rw.Moved(snap.Keys - rest) + rw.Targets(snap.Keys - rest))
      invariant Bounded(db, r, rw.Targets(snap.Keys - rest))
      invariant rw.Injective(snap.Keys) && rw.NoChain(snap.Keys) ==> Relocated(db, r, rw, snap.Keys - rest)
      decreases rest
    {
      var t :| t in rest;
      MoveStep(db, rw, snap.Keys, snap.Keys - rest, t, r);
      r := MoveOne(r, rw, t);
      assert snap.Keys - (rest - {t}) == (snap.Keys - rest) + {t};
      rest := rest - {t};
    }
  }

  // ---------------------------------------------------------------------------
  // The whole update for one item event

  /**
    Rewrites the records under `src` after the item itself was updated: with
    no destination they are all removed, otherwise their paths have `src`
    replaced by the destination (copied for a copy, moved otherwise).
   */
  method PropagateSubtree(db: TagDb, op: ItemOp, src: Path, dest: Option<Path>, frnOf: FrnLookup) returns (r: TagDb)
    ensures dest.None? ==> r.Keys == db.Keys - UnderPath(db, src).Keys && forall p :: p in r ==> r[p] == db[p]
    ensures dest.Some? && op == Copy ==>
      var rw := Rewrite(src, dest.value, frnOf); var keys := UnderPath(db, src).Keys;
      && Kept(db, r, rw.Targets(keys)) && Bounded(db, r, rw.Targets(keys))
      && (rw.Injective(keys) ==> Copied(db, r, rw, keys))
    ensures dest.Some? && op != Copy ==>
      var rw := Rewrite(src, dest.value, frnOf); var keys := UnderPath(db, src).Keys;
      && Kept(db, r, rw.Moved(keys) + rw.Targets(keys)) && Bounded(db, r, rw.Targets(keys))
      && (rw.Injective(keys) && rw.NoChain(keys) ==> Relocated(db, r, rw, keys))
  {
    match dest
    case None =>
      r := RemoveAll(db, UnderPath(db, src).Keys);
    case Some(d) =>
      if op == Copy {
        r := CopySubtree(db, Rewrite(src, d, frnOf));
      } else {
        r := MoveSubtree(db, Rewrite(src, d, frnOf));
      }
  }

  /**
    Rewriting `src` to `dest` is a plain prefix replacement for every record
    under `src`: the source is non-empty, neither path is a prefix of the
    other, and no such record contains `src` again after its prefix.
   */
  predicate CleanRelocation(db: TagDb, src: Path, dest: Path) {
    && |src| > 0
    && !StartsWith(dest, src) && !StartsWith(src, dest)
    && forall p :: p in db && StartsWith(p, src) ==> NoOccurrence(p[|src|..], src)
  }

  /**
    After a move of the directory `src` to `dest`: each record under `src`
    whose new path has a known identity lives at that path with its tags and
    has left its old one, the others stay; records outside both trees are
    unchanged, and no record appears outside `dest` that was not there before.
   */
  predicate MovedUnder(db: TagDb, r: TagDb, src: Path, dest: Path, frnOf: FrnLookup) {
    && (forall p :: p in db && StartsWith(p, src) && frnOf(Relocate(p, src, dest)).Returned? ==>
          && Relocate(p, src, dest) in r
          && r[Relocate(p, src, dest)] == Record(frnOf(Relocate(p, src, dest)).frn, db[p].tags)
          && p !in r)
    && (forall p :: p in db && StartsWith(p, src) && frnOf(Relocate(p, src, dest)).Threw? ==> p in r && r[p] == db[p])
    && (forall p :: p in db && !StartsWith(p, src) && !StartsWith(p, dest) ==> p in r && r[p] == db[p])
    && (forall p :: p in r ==> p in db || StartsWith(p, dest))
  }

  /**
    After a copy of the directory `src` to `dest`: each record under `src`
    whose new path has a known identity is duplicated there; every record
    outside `dest` is unchanged, originals included.
   */
  predicate CopiedUnder(db: TagDb, r: TagDb, src: Path, dest: Path, frnOf: FrnLookup) {
    && (forall p :: p in db && StartsWith(p, src) && frnOf(Relocate(p, src, dest)).Returned? ==>
          && Relocate(p, src, dest) in r
          && r[Relocate(p, src, dest)] == Record(frnOf(Relocate(p, src, dest)).frn, db[p].tags))
    && (forall p :: p in db && !StartsWith(p, dest) ==> p in r && r[p] == db[p])
    && (forall p :: p in r ==> p in db || StartsWith(p, dest))
  }

  /** Under a clean relocation the ordinal replacement is the prefix rewrite, and it neither merges nor chains. */
  lemma CleanRewrite(db: TagDb, rw: Rewrite)
    requires CleanRelocation(db, rw.src, rw.dest)
    ensures forall t :: t in UnderPath(db, rw.src) ==>
      rw.Target(t) == (match rw.frnOf(Relocate(t, rw.src, rw.dest))
                       case Threw => None
                       case Returned(f) => Some((Relocate(t, rw.src, rw.dest), f)))
    ensures rw.Injective(UnderPath(db, rw.src).Keys)
    ensures rw.NoChain(UnderPath(db, rw.src).Keys)
    ensures forall q :: q in rw.Targets(UnderPath(db, rw.src).Keys) ==> StartsWith(q, rw.dest)
  {
    var keys := UnderPath(db, rw.src).Keys;
    forall t | t in keys
      ensures ReplaceAll(t, rw.src, rw.dest) == Some(Relocate(t, rw.src, rw.dest))
    {
    }
    forall t1, t2 | t1 in keys && t2 in keys && rw.Target(t1).Some? && rw.Target(t2).Some? &&
                    rw.Target(t1).value.0 == rw.Target(t2).value.0
      ensures t1 == t2
    {
      RelocateInjective(t1, t2, rw.src, rw.dest);
    }
    forall t1, t2 | t1 in keys && t2 in keys && rw.Target(t1).Some?
      ensures rw.Target(t1).value.0 != t2
    {
      RelocatedLeavesSource(t1, rw.src, rw.dest);
    }
  }

  /** The item update leaves nothing new under `src` when the destination is outside it. */
  lemma ItemStaysOutside(db: TagDb, op: ItemOp, e: ItemEvent, frnOf: FrnLookup, d: Path)
    requires Destination(op, e) == Some(d) && !StartsWith(d, e.source)
    ensures forall q :: q in PropagateItem(db, op, e, frnOf) && StartsWith(q, e.source) ==> q in db
  {
  }

  /** What the item update did, seen from a move of `src` to `d` (as `PropagateItem` states it, restated pointwise). */
  ghost predicate ItemMoved(db: TagDb, db1: TagDb, src: Path, d: Path, frnOf: FrnLookup) {
    && (forall q :: q != src && q != d ==> (q in db1 <==> q in db) && (q in db1 ==> db1[q] == db[q]))
    && (frnOf(d).Returned? && src in db ==> d in db1 && db1[d] == Record(frnOf(d).frn, db[src].tags) && src !in db1)
    && (frnOf(d).Returned? && src !in db ==> db1 == db)
    && (frnOf(d).Threw? ==> db1 == db)
  }

  /** What the item update did, seen from a copy of `src` to `d`. */
  ghost predicate ItemCopied(db: TagDb, db1: TagDb, src: Path, d: Path, frnOf: FrnLookup) {
    && (forall q :: q != d ==> (q in db1 <==> q in db) && (q in db1 ==> db1[q] == db[q]))
    && (frnOf(d).Returned? && src in db ==> d in db1 && db1[d] == Record(frnOf(d).frn, db[src].tags))
    && (frnOf(d).Returned? && src !in db ==> d !in db1)
    && (frnOf(d).Threw? ==> db1 == db)
  }

  lemma ItemMovedHolds(db: TagDb, op: ItemOp, e: ItemEvent, frnOf: FrnLookup, d: Path)
    requires op != Copy && Destination(op, e) == Some(d) && d != e.source
    ensures ItemMoved(db, PropagateItem(db, op, e, frnOf), e.source, d, frnOf)
  {
  }

  lemma ItemCopiedHolds(db: TagDb, e: ItemEvent, frnOf: FrnLookup, d: Path)
    requires Destination(Copy, e) == Some(d) && d != e.source
    ensures ItemCopied(db, PropagateItem(db, Copy, e, frnOf), e.source, d, frnOf)
  {
  }

  /** The facts `MoveCollapsed` starts from: the item update, then the subtree move's guarantees. */
  ghost predicate MoveStage(db: TagDb, db1: TagDb, src: Path, d: Path, frnOf: FrnLookup, r: TagDb) {
    var rw := Rewrite(src, d, frnOf); var keys := UnderPath(db1, src).Keys;
    && CleanRelocation(db, src, d) && ItemMoved(db, db1, src, d, frnOf)
    && Kept(db1, r, rw.Moved(keys) + rw.Targets(keys)) && Bounded(db1, r, rw.Targets(keys))
    && (rw.Injective(keys) && rw.NoChain(keys) ==> Relocated(db1, r, rw, keys))
  }

  lemma MovedStageClean(db: TagDb, db1: TagDb, src: Path, d: Path, frnOf: FrnLookup)
    requires CleanRelocation(db, src, d) && ItemMoved(db, db1, src, d, frnOf)
    ensures CleanRelocation(db1, src, d)
    ensures forall p :: p in db1 && StartsWith(p, src) ==>
              (p in db && p != src && db1[p] == db[p]) || (p == src && frnOf(d).Threw? && db1 == db)
  {
    assert StartsWith(src, src);
  }

  lemma MoveSourceRecord(db: TagDb, db1: TagDb, src: Path, d: Path, frnOf: FrnLookup, r: TagDb)
    requires MoveStage(db, db1, src, d, frnOf, r)
    requires src in db && frnOf(d).Returned?
    ensures d in r && r[d] == Record(frnOf(d).frn, db[src].tags) && src !in r
  {
    var rw := Rewrite(src, d, frnOf);
    var keys := UnderPath(db1, src).Keys;
    MovedStageClean(db, db1, src, d, frnOf);
    CleanRewrite(db1, rw);
    assert StartsWith(src, src);
    forall t | t in keys ensures Relocate(t, src, d) != d {
      assert t != src;
    }
    assert d !in rw.Targets(keys) && d !in rw.Moved(keys);
  }

  lemma MoveInnerRecord(db: TagDb, db1: TagDb, src: Path, d: Path, frnOf: FrnLookup, r: TagDb, p: Path)
    requires MoveStage(db, db1, src, d, frnOf, r)
    requires p in db && StartsWith(p, src) && p != src && frnOf(Relocate(p, src, d)).Returned?
    ensures Relocate(p, src, d) in r && r[Relocate(p, src, d)] == Record(frnOf(Relocate(p, src, d)).frn, db[p].tags)
    ensures p !in r
  {
    var rw := Rewrite(src, d, frnOf);
    var keys := UnderPath(db1, src).Keys;
    var q := Relocate(p, src, d);
    MovedStageClean(db, db1, src, d, frnOf);
    CleanRewrite(db1, rw);
    RelocatedLeavesSource(p, src, d);
    assert p in keys && db1[p] == db[p];
    assert rw.Target(p) == Some((q, frnOf(q).frn));
  }

  lemma MoveSkippedRecord(db: TagDb, db1: TagDb, src: Path, d: Path, frnOf: FrnLookup, r: TagDb, p: Path)
    requires MoveStage(db, db1, src, d, frnOf, r)
    requires p in db && StartsWith(p, src) && frnOf(Relocate(p, src, d)).Threw?
    ensures p in r && r[p] == db[p]
  {
    var rw := Rewrite(src, d, frnOf);
    var keys := UnderPath(db1, src).Keys;
    if p == src {
      assert Relocate(p, src, d) == d;
    } else {
      assert p != d;
    }
    assert p in keys && db1[p] == db[p];
    assert ReplaceAll(p, src, d) == Some(Relocate(p, src, d));
    assert rw.Target(p).None?;
    if StartsWith(p, d) {
      PrefixesComparable(p, src, d);
      assert false;
    }
    forall q | q in rw.Targets(keys)
      ensures q != p
    {
      var t :| t in keys && rw.Target(t).Some? && rw.Target(t).value.0 == q;
      assert StartsWith(q, d);
    }
    assert p !in rw.Moved(keys) + rw.Targets(keys);
  }

  lemma MoveOutsideRecord(db: TagDb, db1: TagDb, src: Path, d: Path, frnOf: FrnLookup, r: TagDb, p: Path)
    requires MoveStage(db, db1, src, d, frnOf, r)
    requires p in db && !StartsWith(p, src) && !StartsWith(p, d)
    ensures p in r && r[p] == db[p]
  {
    var rw := Rewrite(src, d, frnOf);
    var keys := UnderPath(db1, src).Keys;
    MovedStageClean(db, db1, src, d, frnOf);
    CleanRewrite(db1, rw);
    assert StartsWith(src, src) && StartsWith(d, d);
    assert p != src && p != d;
    assert p !in rw.Targets(keys);
  }

  lemma MoveCollapsed(db: TagDb, db1: TagDb, src: Path, d: Path, frnOf: FrnLookup, r: TagDb)
    requires MoveStage(db, db1, src, d, frnOf, r)
    ensures MovedUnder(db, r, src, d, frnOf)
  {
    var rw := Rewrite(src, d, frnOf);
    var keys := UnderPath(db1, src).Keys;
    forall p | p in db && StartsWith(p, src) && frnOf(Relocate(p, src, d)).Returned?
      ensures Relocate(p, src, d) in r && r[Relocate(p, src, d)] == Record(frnOf(Relocate(p, src, d)).frn, db[p].tags)
      ensures p !in r
    {
      if p == src {
        assert Relocate(p, src, d) == d;
        MoveSourceRecord(db, db1, src, d, frnOf, r);
      } else {
        MoveInnerRecord(db, db1, src, d, frnOf, r, p);
      }
    }
    forall p | p in db && StartsWith(p, src) && frnOf(Relocate(p, src, d)).Threw?
      ensures p in r && r[p] == db[p]
    {
      MoveSkippedRecord(db, db1, src, d, frnOf, r, p);
    }
    forall p | p in db && !StartsWith(p, src) && !StartsWith(p, d)
      ensures p in r && r[p] == db[p]
    {
      MoveOutsideRecord(db, db1, src, d, frnOf, r, p);
    }
    RewriteStaysInside(db1, rw);
    assert StartsWith(d, d);
    forall p | p in r
      ensures p in db || StartsWith(p, d)
    {
      assert p in db1 || p in rw.Targets(keys);
    }
  }

  lemma CopyCollapsed(db: TagDb, db1: TagDb, src: Path, d: Path, frnOf: FrnLookup, r: TagDb)
    requires CleanRelocation(db, src, d) && ItemCopied(db, db1, src, d, frnOf)
    requires var rw := Rewrite(src, d, frnOf); var keys := UnderPath(db1, src).Keys;
      && Kept(db1, r, rw.Targets(keys)) && Bounded(db1, r, rw.Targets(keys))
      && (rw.Injective(keys) ==> Copied(db1, r, rw, keys))
    ensures CopiedUnder(db, r, src, d, frnOf)
  {
    var rw := Rewrite(src, d, frnOf);
    var keys := UnderPath(db1, src).Keys;
    assert StartsWith(src, src);
    assert CleanRelocation(db1, src, d) by {
      forall p | p in db1 && StartsWith(p, src) ensures p in db {
      }
    }
    CleanRewrite(db1, rw);
    forall p | p in db && StartsWith(p, src) && frnOf(Relocate(p, src, d)).Returned?
      ensures Relocate(p, src, d) in r && r[Relocate(p, src, d)] == Record(frnOf(Relocate(p, src, d)).frn, db[p].tags)
    {
      var q := Relocate(p, src, d);
      RelocatedLeavesSource(p, src, d);
      assert p in keys && db1[p] == db[p];
      assert rw.Target(p) == Some((q, frnOf(q).frn));
    }
    assert StartsWith(d, d);
    forall p | p in db && !StartsWith(p, d)
      ensures p in r && r[p] == db[p]
    {
      assert p != d && p in db1 && db1[p] == db[p];
      assert p !in rw.Targets(keys);
    }
    forall p | p in r
      ensures p in db || StartsWith(p, d)
    {
      assert p in db1 || p in rw.Targets(keys);
    }
  }

  /** The subtree pass moves records only out of `src` and writes only under `dest`. */
  lemma RewriteStaysInside(db: TagDb, rw: Rewrite)
    ensures forall q :: q in rw.Moved(UnderPath(db, rw.src).Keys) ==> StartsWith(q, rw.src)
    ensures forall q :: q in rw.Targets(UnderPath(db, rw.src).Keys) ==> StartsWith(q, rw.dest)
  {
    var keys := UnderPath(db, rw.src).Keys;
    forall q | q in rw.Targets(keys) ensures StartsWith(q, rw.dest) {
      var t :| t in keys && rw.Target(t).Some? && rw.Target(t).value.0 == q;
    }
  }

  /**
    Whatever the paths, the two stages together leave every record outside
    both the source and the destination trees alone, and add records only
    under the destination.
   */
  lemma SubtreeFrame(db: TagDb, db1: TagDb, r: TagDb, rw: Rewrite, excluded: set<Path>)
    requires forall q :: q in db1 && q != rw.dest ==> q in db && db1[q] == db[q]
    requires forall q :: q in db && q != rw.src && q != rw.dest ==> q in db1
    requires forall q :: q in excluded ==> StartsWith(q, rw.src) || StartsWith(q, rw.dest)
    requires Kept(db1, r, excluded) && Bounded(db1, r, rw.Targets(UnderPath(db1, rw.src).Keys))
    ensures forall p :: p in db && !StartsWith(p, rw.src) && !StartsWith(p, rw.dest) ==> p in r && r[p] == db[p]
    ensures forall p :: p in r ==> p in db || StartsWith(p, rw.dest)
  {
    assert StartsWith(rw.src, rw.src) && StartsWith(rw.dest, rw.dest);
    RewriteStaysInside(db1, rw);
  }

  /** Removing the record at `src` removes it from the records under `src` and nothing else. */
  lemma UnderPathRemoved(db: TagDb, db1: TagDb, src: Path)
    requires db1.Keys == db.Keys - {src}
    ensures UnderPath(db1, src).Keys == UnderPath(db, src).Keys - {src}
  {
  }

  /**
    What one item report does to the tag database whatever the paths: a
    failed item changes nothing, a plain item gets only its own update, a
    collapsed directory with no destination loses every record under it, a
    clean collapsed move relocates the tree and a clean collapsed copy
    duplicates it, and in every case records outside both the source and the
    destination trees are unchanged and new records appear only under the
    destination.
   */
  ghost predicate ItemTagsUpdated(db: TagDb, op: ItemOp, e: ItemEvent, frnOf: FrnLookup, r: TagDb) {
    && (!HResult.Succeeded(e.result) ==> r == db)
    && (HResult.Succeeded(e.result) && e.result != HResult.DontProcessChildren ==> r == PropagateItem(db, op, e, frnOf))
    && (e.result == HResult.DontProcessChildren && Destination(op, e).None? ==>
          r.Keys == db.Keys - UnderPath(db, e.source).Keys && forall p :: p in r ==> r[p] == db[p])
    && (forall p :: p in db && !StartsWith(p, e.source) &&
                     (Destination(op, e).None? || !StartsWith(p, Destination(op, e).value)) ==>
                       p in r && r[p] == db[p])
    && (forall p :: p in r ==> p in db || (Destination(op, e).Some? && StartsWith(p, Destination(op, e).value)))
    && (e.result == HResult.DontProcessChildren && op != Copy && Destination(op, e).Some?
        && CleanRelocation(db, e.source, Destination(op, e).value) ==>
          MovedUnder(db, r, e.source, Destination(op, e).value, frnOf))
    && (e.result == HResult.DontProcessChildren && op == Copy && Destination(op, e).Some?
        && CleanRelocation(db, e.source, Destination(op, e).value) ==>
          CopiedUnder(db, r, e.source, Destination(op, e).value, frnOf))
  }

  /**
    The handler's tag update for one item event: nothing for a failed item;
    otherwise the item's own record, then, when the engine handled a whole
    directory as one item, every record under it.
   */
  method UpdateFileTagsDb(db: TagDb, op: ItemOp, e: ItemEvent, frnOf: FrnLookup) returns (r: TagDb)
    ensures ItemTagsUpdated(db, op, e, frnOf, r)
    ensures (e.result == HResult.DontProcessChildren && op != Copy && Destination(op, e).Some?) ==>
      var db1 := PropagateItem(db, op, e, frnOf);
      var rw := Rewrite(e.source, Destination(op, e).value, frnOf);
      var keys := UnderPath(db1, e.source).Keys;
      && Kept(db1, r, rw.Moved(keys) + rw.Targets(keys)) && Bounded(db1, r, rw.Targets(keys))
      && (rw.Injective(keys) && rw.NoChain(keys) ==> Relocated(db1, r, rw, keys))
    ensures (e.result == HResult.DontProcessChildren && op == Copy && Destination(op, e).Some?) ==>
      var db1 := PropagateItem(db, op, e, frnOf);
      var rw := Rewrite(e.source, Destination(op, e).value, frnOf);
      var keys := UnderPath(db1, e.source).Keys;
      && Kept(db1, r, rw.Targets(keys)) && Bounded(db1, r, rw.Targets(keys))
      && (rw.Injective(keys) ==> Copied(db1, r, rw, keys))
    ensures (e.result == HResult.DontProcessChildren && op != Copy && Destination(op, e).Some?
             && CleanRelocation(db, e.source, Destination(op, e).value)) ==>
      MovedUnder(db, r, e.source, Destination(op, e).value, frnOf)
    ensures (e.result == HResult.DontProcessChildren && op == Copy && Destination(op, e).Some?
             && CleanRelocation(db, e.source, Destination(op, e).value)) ==>
      CopiedUnder(db, r, e.source, Destination(op, e).value, frnOf)
  {
    if !HResult.Succeeded(e.result) {
      return db;
    }
    var db1 := PropagateItem(db, op, e, frnOf);
    if e.result != HResult.DontProcessChildren {
      if Destination(op, e).Some? {
        assert StartsWith(Destination(op, e).value, Destination(op, e).value);
      }
      return db1;
    }
    r := PropagateSubtree(db1, op, e.source, Destination(op, e), frnOf);
    match Destination(op, e)
    case None =>
      UnderPathRemoved(db, db1, e.source);
    case Some(d) =>
      var rw := Rewrite(e.source, d, frnOf);
      RewriteStaysInside(db1, rw);
      var keys := UnderPath(db1, e.source).Keys;
      SubtreeFrame(db, db1, r, rw, if op == Copy then rw.Targets(keys) else rw.Moved(keys) + rw.Targets(keys));
      if CleanRelocation(db, e.source, d) {
        assert StartsWith(e.source, e.source);
        if op == Copy {
          ItemCopiedHolds(db, e, frnOf, d);
          CopyCollapsed(db, db1, e.source, d, frnOf, r);
        } else {
          ItemMovedHolds(db, op, e, frnOf, d);
          MoveCollapsed(db, db1, e.source, d, frnOf, r);
        }
      }
  }

  /**
    A collapsed rename onto a name that extends the old one: the item update
    re-keys `C:\a\foo` to `C:\a\foo2`, which still starts with the source,
    so the subtree pass rewrites it once more and the record ends at
    `C:\a\foo22`, with nothing left at the renamed path.
   */
  method RenameOntoExtendedName() returns (r: TagDb)
    ensures "C:\\a\\foo22" in r && r["C:\\a\\foo22"] == Record(Some(7), ["red"])
    ensures "C:\\a\\foo2" !in r && "C:\\a\\foo" !in r
  {
    var src, d := "C:\\a\\foo", "C:\\a\\foo2";
    var db: TagDb := map[src := Record(Some(1), ["red"])];
    var e := ItemEvent(HResult.DontProcessChildren, src, None, Some("foo2"), None);
    var frnOf: FrnLookup := p => Returned(Some(7));
    ExtendedNameItem(db, e, frnOf);
    ExtendedNameRewrite(PropagateItem(db, Rename, e, frnOf), frnOf);
    r := UpdateFileTagsDb(db, Rename, e, frnOf);
    assert Relocated(PropagateItem(db, Rename, e, frnOf), r, Rewrite(src, d, frnOf), {d});
  }

  /** The item stage of the rename above: the directory's record is re-keyed to `foo2`. */
  lemma ExtendedNameItem(db: TagDb, e: ItemEvent, frnOf: FrnLookup)
    requires db == map["C:\\a\\foo" := Record(Some(1), ["red"])]
    requires e == ItemEvent(HResult.DontProcessChildren, "C:\\a\\foo", None, Some("foo2"), None)
    requires forall p :: frnOf(p) == Returned(Some(7))
    ensures Destination(Rename, e) == Some("C:\\a\\foo2")
    ensures PropagateItem(db, Rename, e, frnOf) == map["C:\\a\\foo2" := Record(Some(7), ["red"])]
  {
    var src, d := "C:\\a\\foo", "C:\\a\\foo2";
    assert IsSeparator(src[4]);
    assert DirectoryName(src) == "C:\\a";
    assert !IsRooted("foo2");
    assert "C:\\a" + "\\" + "foo2" == d;
    assert Combine("C:\\a", "foo2") == d;
  }

  /** The subtree stage of the rename above: `foo2` is still under `foo`, and the replacement sends it to `foo22`. */
  lemma ExtendedNameRewrite(db1: TagDb, frnOf: FrnLookup)
    requires db1 == map["C:\\a\\foo2" := Record(Some(7), ["red"])]
    requires forall p :: frnOf(p) == Returned(Some(7))
    ensures var rw := Rewrite("C:\\a\\foo", "C:\\a\\foo2", frnOf);
      && UnderPath(db1, rw.src).Keys == {rw.dest}
      && rw.Target(rw.dest) == Some(("C:\\a\\foo22", Some(7)))
      && rw.Targets({rw.dest}) == {"C:\\a\\foo22"} && rw.Moved({rw.dest}) == {rw.dest}
      && rw.Injective({rw.dest}) && rw.NoChain({rw.dest})
  {
    var src, d, t := "C:\\a\\foo", "C:\\a\\foo2", "C:\\a\\foo22";
    var rw := Rewrite(src, d, frnOf);
    assert StartsWith(d, src);
    assert NoOccurrence(d[|src|..], src);
    assert d[|src|..] == "2" && d + "2" == t;
    assert ReplaceAll(d, src, d) == Some(t);
    assert UnderPath(db1, src).Keys == {d};
    assert rw.Target(d) == Some((t, Some(7)));
  }
}

=== FILE: wrappers.dfy ===
/** The optional values the model uses in place of C# `null`. */
module Wrappers {

  datatype Option<+T> = None | Some(value: T) {

    /** The wrapped value, or `default` when there is none (C# `??`). */
    function GetOr(default: T): T {
      match this
      case Some(v) => v
      case None => default
    }
  }
}
